=== FILE: README.md ===
# movfit core in Dafny

A model of the server and list logic of movfit. movfit is a Next.js
application where signed-in users write short testimonials and
administrators review the testimonials and the users. The model covers:

- the route guard (`middleware.ts`): who is sent where;
- credential sign-in and the token and session callbacks (`authOptions.ts`);
- the administrator gate (`isAdmin.ts`);
- the API routes for registration, password reset, the user listing and the
  testimonial collection, over an in-memory store of users and testimonials
  (`Db.Store`) that stands for the Prisma client;
- the list logic of the three list pages: search, role filter, sort, CSV
  export, and the local updates after a delete or an edit.

The handlers that write (registration, password reset, testimonial POST)
change the store in place. They are methods that take the `Store` object,
change only the fields their `modifies` clause names, and state the whole new
state. The two listing handlers only read the store. The NextAuth callbacks
are methods too: they change the token and session objects passed to them
(`AuthOptions.Jwt`, `AuthOptions.Session`). Two scenarios of two requests each
(`ForgotPassword.SpendTwice`, `TestimonialsApi.PostSameIdTwice`) are methods
over the store. The pages' filter-and-sort effects copy the list, filter it,
and sort an array in place (`Sorting.SortInPlace`, an insertion sort). The
rest are pure functions and lemmas about them.

Foreign primitives are parameters of the operations that use them:

- bcrypt's `hash` and `compare`;
- `crypto.randomBytes(32)`, as the 32 bytes it returns;
- `Date.now()` and `new Date()`, as a millisecond count;
- zod's `.email()` check;
- `encodeURIComponent`;
- the mail service's reply, as a success flag;
- `localeCompare`, as an arbitrary total preorder on strings.

One module per source file:

- `Middleware`, `AuthOptions`, `AdminGate`, `Register`, `ForgotPassword`,
  `UsersApi` and `TestimonialsApi` model the server files;
- `AdminTestimonialsPage`, `TestimonialsPage`, `AdminUsersPage` and
  `TestimonialForm` model the pages;
- `Wrappers`, `Strings`, `Lists`, `Sorting`, `Csv` and `Db` model the
  JavaScript and Prisma primitives that the other modules share.

## Model

| member | source | states |
|---|---|---|
| Strings.Lower | src/app/admin/testimonials/page.tsx:70-71 | `toLowerCase` keeps the length and leaves no upper-case letter |
| Strings.LowerIdempotent | src/app/admin/testimonials/page.tsx:70-71 | lower-casing twice is lower-casing once |
| Strings.LowerKeepsBlank | src/app/testimonials/page.tsx:137-139 | lower-casing a search text never changes whether it is blank |
| Strings.TrimEmptyIffBlank | src/app/admin/testimonials/page.tsx:67 | `search.trim()` is empty exactly when the search is empty or only white space |
| Strings.SplitJoin | src/app/admin/users/page.tsx:48-50 | splitting a `join` at its one-character separator gives back the parts, when no part holds the separator |
| Lists.Filter | src/app/admin/testimonials/page.tsx:116 | `filter` keeps exactly the elements that satisfy the condition; the result is a sub-multiset and no longer than the input |
| Lists.FilterCount | src/app/admin/testimonials/page.tsx:116 | `filter` keeps every copy of an element that passes and no copy of one that fails |
| Lists.FilterAppend | src/app/admin/testimonials/page.tsx:116 | `filter` keeps relative order: it distributes over concatenation |
| Lists.FilterAll | src/app/admin/testimonials/page.tsx:116 | when every element passes, `filter` returns the list unchanged |
| Lists.FilterCommute | src/app/testimonials/page.tsx:89 | two filters give the same list in either order |
| Lists.FilterSame | src/app/testimonials/page.tsx:138-140 | filters by conditions that agree everywhere give the same list |
| Lists.FilterSplits | src/app/admin/users/page.tsx:34-36 | a filter and its opposite filter together hold every element exactly once |
| Sorting.DirectedTotalPreorder | src/app/admin/testimonials/page.tsx:87-89 | swapping the comparator's arguments for `"desc"` keeps a total preorder |
| Sorting.DescendingMeansReversed | src/app/admin/testimonials/page.tsx:87-89 | sorted under the swapped comparator means sorted in reverse key order |
| Sorting.Sort | src/app/api/users/route.ts:12-16 | the ordered query's result is a permutation of its input and sorted by the key |
| Sorting.SortInPlace | src/app/admin/testimonials/page.tsx:74-90 | `a.sort(cmp)` leaves the array sorted by the key under the comparator, and a permutation of its old contents |
| Csv.LineOfThree | src/app/admin/testimonials/page.tsx:98 | a three-value row becomes its three quoted values separated by commas |
| Csv.DocumentLines | src/app/admin/testimonials/page.tsx:97-99 | with no line break inside a value, the text splits at `\n` into exactly the rows' lines (`Lines`: row `i` written as its quoted values joined by commas) |
| Csv.QuotedCommaLine | src/app/admin/testimonials/page.tsx:98 | a value holding `","` is written exactly as the two values around it would be |
| Csv.UnescapedQuoteSplitsValue | src/app/admin/testimonials/page.tsx:98 | the single value `x","y` is exported as `"x","y"`, which an RFC 4180 reader reads as the two values `x` and `y` |
| Csv.EscapedRoundTrip | src/app/admin/testimonials/page.tsx:94-99 | with quotes doubled inside values, an RFC 4180 reader reads back exactly the rows written |
| Csv.EscapedDocumentQuoteFree | src/app/admin/users/page.tsx:47-50 | when no value holds a quote, the escaping writer gives the text the page writes |
| Db.FindByEmail | src/app/api/register/route.ts:24 | `findUnique` by email finds a user exactly when one has that email, and returns that user |
| Db.Store.UserRows | src/app/api/users/route.ts:12 | `findMany` scans every stored user exactly once |
| AuthOptions.Authorize | src/lib/authOptions.ts:36-55 | sign-in succeeds exactly when both fields are present, a user has the email, has a password, and `compare` accepts; it returns that user; every failure raises the same `"Invalid credentials"` |
| AuthOptions.CredentialSymmetry | src/lib/authOptions.ts:44-53 | an unknown email and a wrong password give the caller the same answer |
| AuthOptions.JwtCallback | src/lib/authOptions.ts:62-68 | with a user, the token gets the user's id and role; without one, the token is unchanged; the same object is returned |
| AuthOptions.SessionCallback | src/lib/authOptions.ts:69-75 | the session user's id and role are set from the token; name, email and expiry stay as they were |
| AuthOptions.SignInSession | src/lib/authOptions.ts:62-75 | sign-in followed by the session callback gives the session the user's id and role |
| Middleware.Guard | src/middleware.ts:5-49 | the guard passes only on an auth page, and redirects only to `/admin`, to `/testimonials` or to the login page with a `from` parameter |
| Middleware.AuthPageSignedIn | src/middleware.ts:7-16 | signed in on an auth page: an administrator is sent to `/admin`, anyone else to `/testimonials` |
| Middleware.PassOnlyOnAuthPage | src/middleware.ts:11-18 | the request passes untouched exactly on an auth page without a token |
| Middleware.ProtectedAreaSignedOut | src/middleware.ts:20-41 | without a token, the testimonials and admin areas redirect to `/login?from=`, followed by the encoded path and any query string |
| Middleware.AdminAreaWrongRole | src/middleware.ts:43-45 | a signed-in non-administrator in the admin area is redirected to `/testimonials` |
| Middleware.SignedInProceeds | src/middleware.ts:32-48 | an administrator anywhere, and a signed-in user outside the admin area, go on to the page |
| Middleware.RedirectSettles | src/middleware.ts:11-48 | a redirect target is never redirected again with the same token: there are no redirect loops |
| Middleware.HandleSignedOut | src/middleware.ts:5-65 | without a token, on a matched path, `/login` and `/forgot-password` load and every other matched path redirects to the login page with the path to return to |
| Middleware.HandleSignedIn | src/middleware.ts:5-65 | with a token, on a matched path, the auth pages redirect to the role's home, the admin area redirects a non-administrator to `/testimonials`, and every other case goes on to the page |
| Middleware.MatchedAuthPages | src/middleware.ts:58-65 | on a matched path, the auth pages are exactly `/login` and `/forgot-password` |
| ForgotPassword.Hex | src/app/api/forgot-password/route.ts:26 | hex text is two lower-case hex digits per byte |
| ForgotPassword.UnhexHex | src/app/api/forgot-password/route.ts:26 | hex encoding loses nothing: distinct random bytes give distinct tokens |
| ForgotPassword.TokenShape | src/app/api/forgot-password/route.ts:26 | the token from 32 random bytes has 64 characters |
| ForgotPassword.IssueToken | src/app/api/forgot-password/route.ts:29-35 | POST's write sets the user's token and expiry, and changes no other field and no other user |
| ForgotPassword.ConsumeToken | src/app/api/forgot-password/route.ts:88-95 | PUT's write sets the new hash and clears both reset fields in one update, and changes no other field and no other user |
| ForgotPassword.IssueOverwrites | src/app/api/forgot-password/route.ts:29-35 | a second request for the same user replaces the first token and expiry |
| ForgotPassword.IssuedTokenLifetime | src/app/api/forgot-password/route.ts:27 | a fresh token is held by its user alone, and counts as expired exactly when more than one hour has passed |
| ForgotPassword.SpentTokenIsGone | src/app/api/forgot-password/route.ts:79-95 | after a token is spent, no user holds it, provided no other user held it before |
| ForgotPassword.Post | src/app/api/forgot-password/route.ts:7-63 | 500 with the store unchanged when the body is not JSON (the throw is not caught); 400 with the store unchanged when the email is invalid; 404 with the store unchanged for an unknown email; otherwise the token and expiry are written, then 200, or 500 if the mail fails, with the token still written |
| ForgotPassword.Put | src/app/api/forgot-password/route.ts:65-98 | 500 with the store unchanged exactly when the body is not JSON (the throw is not caught); the schema's 400 exactly when the password or the token is missing or not a string; 400 `"Token inválido"` when every holder's token has expired; the store is unchanged on every 400; a token expiring exactly now is still accepted; on 200 some holder's password is replaced by the hash and its reset fields are cleared |
| ForgotPassword.SpendTwice | src/app/api/forgot-password/route.ts:79-95 | a token held by at most one user cannot be spent twice |
| Register.Issues | src/app/api/register/route.ts:6-20 | there are no issues exactly when the body is an object whose name is a string of at least 4 characters, whose email is a valid string and whose password is a string of at least 6 characters; a body that is not an object gets the single issue `Expected object, received <type>` |
| Register.MissingAndWrongTypeDiffer | src/app/api/register/route.ts:9-14 | an absent email gets `"Required"` and a null one `"Expected string, received null"`; an absent name and a wrongly typed one get the same `"Informe seu nome!"` |
| Register.Post | src/app/api/register/route.ts:5-33 | 500 with the store unchanged exactly when the body is not JSON (the throw is not caught); exactly an invalid body gets its issues, and the store is unchanged; a taken email is refused and nothing is created; otherwise exactly one user is added, under a fresh id, and emails stay unique; the row (`NewUser`) stores the hash, never the plain password, with role `"USER"` and no pending reset |
| Register.RegisteredUserSignsIn | src/app/api/register/route.ts:27-30 | a just-registered user, stored as `NewUser` writes it, signs in exactly with a password that `compare` accepts against the stored hash, and gets that row back |
| AdminGate.IsAdmin | src/utils/isAdmin.ts:4-10 | the session is returned unchanged exactly when its role is `"ADMIN"`; otherwise null |
| AdminGate.LowerCaseRoleRefused | src/utils/isAdmin.ts:6 | the role comparison is case-sensitive: `"admin"` is refused |
| UsersApi.Get | src/app/api/users/route.ts:5-19 | 401 exactly when the gate refuses; otherwise every user, each once, newest first |
| TestimonialsApi.AscendingOnlyForAsc | src/app/api/testimonials/route.ts:8-14 | ascending order only for the exact parameter `"asc"`; missing, empty or any other value gives descending |
| TestimonialsApi.Get | src/app/api/testimonials/route.ts:5-24 | 500 exactly when the query fails; otherwise every testimonial in creation order, ascending only for `sort=asc` |
| TestimonialsApi.NewTestimonial | src/app/api/testimonials/route.ts:41-47 | the created record is owned by the looked-up user, holds every other text field of the body unchanged, and takes the body's `id` and `createdAt` when it has them, the next id and the current time otherwise |
| TestimonialsApi.BodyUserIdIgnored | src/app/api/testimonials/route.ts:41-47 | a `userId` in the body never decides the owner of the record `NewTestimonial` builds |
| TestimonialsApi.BodyCreatedAtWins | src/app/api/testimonials/route.ts:41-47 | a `createdAt` in the body is stored as sent, whatever the clock says |
| TestimonialsApi.Post | src/app/api/testimonials/route.ts:26-57 | 401 with nothing stored when the session (`SessionEmail`) has no email or the email matches no user; 500 with nothing stored when the body is not JSON or the id it would use is taken; otherwise exactly the `NewTestimonial` record is appended, the id counter moves on only when the database chose the id, and no length check is made on the content |
| TestimonialsApi.PostSameIdTwice | src/app/api/testimonials/route.ts:41-55 | the same post with a client-chosen id, sent twice, never stores a second row: the second answer is 500 unless both are 401 |
| TestimonialForm.Validate | src/app/admin/testimonials/page.tsx:15-20 | content is accepted exactly when it has 10 to 150 characters; otherwise the field's message for missing, short or long content (the same schema is at src/app/testimonials/page.tsx:18-23) |
| AdminTestimonialsPage.Search | src/app/admin/testimonials/page.tsx:66-73 | a blank search keeps the list exactly as it is; otherwise exactly the items whose lower-cased author name or content contains the lower-cased, untrimmed search |
| AdminTestimonialsPage.Refresh | src/app/admin/testimonials/page.tsx:65-92 | the shown list is a permutation of the search result, sorted by the key (`SortKey`: the author's name for `"name"`, the date for `"createdAt"`, the content for any other value), ascending for `"asc"` and reversed for `"desc"` |
| AdminTestimonialsPage.TableSingleLine | src/app/admin/testimonials/page.tsx:95-96 | the exported table has no line break inside a value when no item has one |
| AdminTestimonialsPage.ExportLines | src/app/admin/testimonials/page.tsx:94-99 | when no value holds a line break, the CSV has the header line, then one line per shown item in order (`Table`), each value in quotes |
| AdminTestimonialsPage.ExportSplitsQuotedContent | src/app/admin/testimonials/page.tsx:94-99 | the page's export of one testimonial whose content is `x","y` reads back with four values in its row, not the item's three |
| AdminTestimonialsPage.CorrectedExportReadsBack | src/app/admin/testimonials/page.tsx:94-99 | the export with quotes doubled reads back as the header and the items' rows |
| AdminTestimonialsPage.CorrectedExportAgrees | src/app/admin/testimonials/page.tsx:94-99 | without quotes in the values, the corrected export is the page's text |
| AdminTestimonialsPage.Delete | src/app/admin/testimonials/page.tsx:116 | after a delete, the list holds exactly the entries with another id |
| AdminTestimonialsPage.DeleteKeepsOrder | src/app/admin/testimonials/page.tsx:116 | a delete keeps the other entries in their order |
| AdminTestimonialsPage.DeleteThenSearch | src/app/admin/testimonials/page.tsx:116 | the list shown after a delete is the list shown before it, without the deleted entry |
| AdminTestimonialsPage.DeleteAbsent | src/app/admin/testimonials/page.tsx:116 | deleting an id that no entry has leaves the list as it is |
| AdminTestimonialsPage.Edit | src/app/admin/testimonials/page.tsx:138-142 | an edit changes only the content of the entries with the edited id; length, order, ids, authors and dates are unchanged |
| AdminTestimonialsPage.EditLastWins | src/app/admin/testimonials/page.tsx:138-142 | of two edits of one entry, the later content wins |
| AdminTestimonialsPage.EditThenDelete | src/app/admin/testimonials/page.tsx:138-142 | an edit never changes what a delete of the same id leaves |
| TestimonialsPage.Search | src/app/testimonials/page.tsx:136-141 | a blank search keeps the list exactly as it is; otherwise exactly the items whose lower-cased content contains the lower-cased search; names are not searched |
| TestimonialsPage.SearchIgnoresCase | src/app/testimonials/page.tsx:139 | a search differing only in letter case finds the same items in the same order |
| TestimonialsPage.Refresh | src/app/testimonials/page.tsx:135-150 | the shown list is a permutation of the search result, sorted by the key (`SortKey`: the date for `"createdAt"`, the content for any other value), ascending for `"asc"` and reversed for `"desc"` |
| TestimonialsPage.Delete | src/app/testimonials/page.tsx:89 | after a delete, the list holds exactly the entries with another id |
| TestimonialsPage.DeleteKeepsOrder | src/app/testimonials/page.tsx:89 | a delete keeps the other entries in their order |
| TestimonialsPage.DeleteThenSearch | src/app/testimonials/page.tsx:89 | the list shown after a delete is the list shown before it, without the deleted entry |
| TestimonialsPage.Edit | src/app/testimonials/page.tsx:111-115 | an edit changes only the content of the entries with the edited id; nothing else changes |
| TestimonialsPage.EditAbsent | src/app/testimonials/page.tsx:111-115 | editing an id that no entry has leaves the list as it is |
| TestimonialsPage.EditThenDelete | src/app/testimonials/page.tsx:111-115 | an edit never changes what a delete of the same id leaves |
| AdminUsersPage.ByRole | src/app/admin/users/page.tsx:33-36 | an empty role filter keeps the list exactly as it is; otherwise exactly the users whose role equals it |
| AdminUsersPage.RolesPartition | src/app/admin/users/page.tsx:33-36 | with every role `"USER"` or `"ADMIN"`, the two role views together hold each user exactly once |
| AdminUsersPage.Refresh | src/app/admin/users/page.tsx:32-43 | the shown list is a permutation of the role filter's result, sorted by name, ascending for `"asc"` and reversed for `"desc"` |
| AdminUsersPage.TableSingleLine | src/app/admin/users/page.tsx:46-47 | the exported table has no line break inside a value when no user has one |
| AdminUsersPage.ExportLines | src/app/admin/users/page.tsx:45-50 | when no value holds a line break, the CSV has `filtered.length + 1` lines: `"Nome","Email","Perfil"`, then one quoted name, email and role line per shown user, in order |
| AdminUsersPage.CorrectedExportReadsBack | src/app/admin/users/page.tsx:45-50 | the export with quotes doubled reads back as the header and the users' rows |
| AdminUsersPage.CorrectedExportAgrees | src/app/admin/users/page.tsx:45-50 | without quotes in the values, the corrected export is the page's text |

## Left out

- The EmailJS request is reduced to its success flag (`send`). The mail body, the headers and the environment keys are not modelled.
- The password-reset link is modelled with the base URL as a parameter; `process.env` is not modelled.
- The page-side calls are not modelled: axios calls, toasts, router pushes, loading flags and modals. The Blob, URL and DOM download of the CSV is not modelled either; only the CSV text is.
- React effect scheduling and async timing are not modelled. Each effect is one call on the current state.
- Markup and presentational components are not modelled. The login, register, forgot-password and reset-password client pages are not modelled either; they only repeat the server schemas and call the network.
- The PUT and DELETE handlers of the testimonial API are not part of this model. Neither are the `/auth/testimonials` and `/testimonials/user/:id` routes that the pages call. The model states no owner-or-admin rule.
- The tests, the test utilities and the seed script are not modelled. The tests exercise only mocks.
- The Prisma schema is not part of this model. The default role `"USER"`, the unique email and the column types are assumptions of `Db`. Prisma's checks on unknown columns in a created testimonial are not modelled; `TestimonialsApi.Post` stores whatever string fields the body has.
- Store failures are not modelled, except in the testimonial list, where `queryFails` stands for one, and in the testimonial POST, which answers 500 for a body that is not JSON or an identifier already in use. Other causes of that 500 (a lost connection, a wrongly typed column) are not modelled.
- TestimonialsApi.NewTestimonial: `updatedAt` is not a column of the model, so a body's `updatedAt` is not modelled. `createdAt` is a millisecond count; the parsing of a date string in the body is not modelled.
- TestimonialsApi.Post: how the database's identifier sequence reacts to an explicit `id` depends on the database provider, which is not part of this model. Here an explicit `id` leaves the counter where it was, and any clash, with the counter's id too, gives 500 with nothing stored.
- Strings.Lower: only ASCII letters are lower-cased. JavaScript's `toLowerCase` also maps other Unicode letters.
- String lengths count Dafny characters. JavaScript counts UTF-16 code units, so a character outside the Basic Multilingual Plane counts once here and twice in the source.
- Sorting.SortInPlace, Sorting.Sort and every `Refresh`: `localeCompare` is an arbitrary total preorder, not a locale collation. Sort stability is not stated.
- UsersApi.Get, TestimonialsApi.Get: the order of rows with equal creation times is not stated, because the database does not fix it.
- ForgotPassword.Put: when several users hold the same token, which one `findFirst` picks is left open. The contract says only that some holder was picked.
- Register.Post, ForgotPassword.Put: bcrypt's salted hash is modelled as a fixed function `hash` of the password. The cost factor 10 is not modelled.
- Register.Issues: zod's error text is modelled as the list of the failing fields' messages, not as the JSON text zod builds. A JSON value's type is given by the name zod prints for it (`Other(kind)`); zod's own type detection is not modelled.
- AdminGate.IsAdmin: a session without a `user` object is refused here. The source would read `role` of `undefined` and throw.
- Middleware.Handle: the matcher patterns are compared as plain paths. Path-to-regexp's handling of trailing slashes and encoded characters is not modelled.

## Findings

| source | as written | input that shows it | evidently intended | confidence | as-written member | corrected member |
|---|---|---|---|---|---|---|
| src/app/admin/testimonials/page.tsx:98 (same code at src/app/admin/users/page.tsx:49) | each value is wrapped in quotes, but a quote inside the value is not doubled | a testimonial whose content is `x","y` is exported as `"x","y"`, which reads back as two values | quotes inside a value doubled (RFC 4180, section 2, rule 7), so each value reads back as itself | not executed | Csv.UnescapedQuoteSplitsValue | Csv.EscapedRoundTrip |

The pages' `Export` functions model the text as written;
`AdminTestimonialsPage.ExportSplitsQuotedContent` shows the discrepancy on the
page's own export. `CorrectedExport` on each admin page uses the escaping
writer. `CorrectedExportReadsBack` proves it
reads back as the table. `CorrectedExportAgrees` proves it gives the same text
as the page whenever no value holds a quote.

=== FILE: admin_testimonials_page.dfy ===
/** The list logic of the admin testimonials page
    (src/app/admin/testimonials/page.tsx): search and sort of the loaded list,
    CSV export, and the local updates after a delete or an edit. */
module AdminTestimonialsPage {
  import opened Wrappers
  import opened Strings
  import opened Lists
  import opened Sorting
  import Csv
  import opened Db

  /** A `ResponseTestimonial` as the page holds it: `createdAt` is the JSON
      date string, `userName` is `user.name`. */
  datatype Item = Item(id: Id, content: string, createdAt: string, userName: string)

  /** The lower-cased search text occurs in the lower-cased author name or content. */
  predicate Matches(t: Item, search: string) {
    Contains(Lower(t.userName), Lower(search)) || Contains(Lower(t.content), Lower(search))
  }

  /** The filter step: a blank search keeps every item; otherwise the items the
      (untrimmed) search text matches. */
  function Search(items: seq<Item>, search: string): (r: seq<Item>)
    ensures forall t :: t in r <==> t in items && (IsBlank(search) || Matches(t, search))
    ensures multiset(r) <= multiset(items)
    ensures IsBlank(search) ==> r == items
  {
    TrimEmptyIffBlank(search);
    if Trim(search) != "" then Filter(items, (t: Item) => Matches(t, search)) else items
  }

  /** The value compared for `sortBy`: the author's name, the creation date, or
      for any other value the content. */
  function SortKey(sortBy: string, t: Item): string
  {
    if sortBy == "name" then t.userName else if sortBy == "createdAt" then t.createdAt else t.content
  }

  /** The effect that recomputes `filtered`: copy, filter, sort in place with
      `localeCompare` (the total preorder `le`), arguments swapped for `"desc"`. */
  method Refresh(testimonials: seq<Item>, search: string, sortBy: string, order: Direction,
                 le: (string, string) -> bool) returns (filtered: seq<Item>)
    requires TotalPreorder(le)
    ensures multiset(filtered) == multiset(Search(testimonials, search))
    ensures multiset(filtered) <= multiset(testimonials)
    ensures forall t :: t in filtered <==> t in testimonials && (IsBlank(search) || Matches(t, search))
    ensures order == Asc ==> forall i, j :: 0 <= i < j < |filtered| ==>
              le(SortKey(sortBy, filtered[i]), SortKey(sortBy, filtered[j]))
    ensures order == Desc ==> forall i, j :: 0 <= i < j < |filtered| ==>
              le(SortKey(sortBy, filtered[j]), SortKey(sortBy, filtered[i]))
  {
    var result := testimonials;
    TrimEmptyIffBlank(search);
    if Trim(search) != "" {
      result := Filter(result, (t: Item) => Matches(t, search));
    }
    assert result == Search(testimonials, search);
    var a := new Item[|result|](i requires 0 <= i < |result| => result[i]);
    assert a[..] == result;
    DirectedTotalPreorder(le, order);
    SortInPlace(a, (t: Item) => SortKey(sortBy, t), Directed(le, order));
    filtered := a[..];
    forall t ensures t in filtered <==> t in result {
      assert t in filtered <==> t in multiset(filtered);
      assert t in result <==> t in multiset(result);
    }
  }

  const Header := ["Usuário", "Depoimento", "Data do depoimento"]

  function Row(t: Item): seq<string> {
    [t.userName, t.content, t.createdAt]
  }

  /** The header followed by one row per item. */
  function Table(filtered: seq<Item>): seq<seq<string>>
  {
    [Header] + seq(|filtered|, i requires 0 <= i < |filtered| => Row(filtered[i]))
  }

  /** `exportToCSV`'s text: the header line, then one line per filtered item. */
  function Export(filtered: seq<Item>): string {
    Csv.Document(Table(filtered))
  }

  /** No value of the exported table holds a line break when no item's does. */
  lemma TableSingleLine(filtered: seq<Item>)
    requires forall t :: t in filtered ==> '\n' !in t.userName && '\n' !in t.content && '\n' !in t.createdAt
    ensures Csv.SingleLineValues(Table(filtered))
  {
    var rows := Table(filtered);
    forall i, j | 0 <= i < |rows| && 0 <= j < |rows[i]| ensures '\n' !in rows[i][j] {
      if i > 0 {
        assert filtered[i - 1] in filtered;
        assert rows[i] == Row(filtered[i - 1]);
      } else {
        assert rows[i] == Header;
      }
    }
  }

  /** With no line break inside a value, the export has the header line and
      then one line per item, in the list's order, each value in quotes. */
  lemma ExportLines(filtered: seq<Item>)
    requires forall t :: t in filtered ==> '\n' !in t.userName && '\n' !in t.content && '\n' !in t.createdAt
    ensures |Split(Export(filtered), '\n')| == |filtered| + 1
    ensures Split(Export(filtered), '\n')[0] ==
              Csv.Quote("Usuário") + "," + Csv.Quote("Depoimento") + "," + Csv.Quote("Data do depoimento")
    ensures forall i :: 0 <= i < |filtered| ==>
              Split(Export(filtered), '\n')[i + 1] ==
                Csv.Quote(filtered[i].userName) + "," + Csv.Quote(filtered[i].content) + "," + Csv.Quote(filtered[i].createdAt)
  {
    var rows := Table(filtered);
    TableSingleLine(filtered);
    Csv.DocumentLines(rows);
    Csv.LineOfThree(Header[0], Header[1], Header[2]);
    forall i | 0 <= i < |filtered|
      ensures Csv.Lines(rows)[i + 1] ==
        Csv.Quote(filtered[i].userName) + "," + Csv.Quote(filtered[i].content) + "," + Csv.Quote(filtered[i].createdAt)
    {
      Csv.LineOfThree(filtered[i].userName, filtered[i].content, filtered[i].createdAt);
    }
  }

  /** The update after a delete: `prev.filter((t) => t.id !== id)`. */
  function Delete(items: seq<Item>, id: Id): (r: seq<Item>)
    ensures forall t :: t in r <==> t in items && t.id != id
    ensures multiset(r) <= multiset(items)
  {
    Filter(items, (t: Item) => t.id != id)
  }

  /** Deleting keeps the survivors' relative order: it distributes over concatenation. */
  lemma DeleteKeepsOrder(front: seq<Item>, back: seq<Item>, id: Id)
    ensures Delete(front + back, id) == Delete(front, id) + Delete(back, id)
  {
    FilterAppend(front, back, (t: Item) => t.id != id);
  }

  /** The list shown after a delete is the list shown before it, less the
      deleted entry: searching and deleting commute. */
  lemma DeleteThenSearch(items: seq<Item>, id: Id, search: string)
    ensures Search(Delete(items, id), search) == Delete(Search(items, search), id)
  {
    TrimEmptyIffBlank(search);
    if Trim(search) != "" {
      FilterCommute(items, (t: Item) => t.id != id, (t: Item) => Matches(t, search));
    }
  }

  /** A delete of an identifier nobody has leaves the list as it is. */
  lemma DeleteAbsent(items: seq<Item>, id: Id)
    requires forall i :: 0 <= i < |items| ==> items[i].id != id
    ensures Delete(items, id) == items
  {
    FilterAll(items, (t: Item) => t.id != id);
  }

  /** The update after an edit: the entry with the edited id gets the new
      content; positions, identifiers, authors and dates do not change. */
  function Edit(items: seq<Item>, id: Id, content: string): (r: seq<Item>)
    ensures |r| == |items|
    ensures forall i :: 0 <= i < |r| ==>
              r[i].id == items[i].id && r[i].createdAt == items[i].createdAt && r[i].userName == items[i].userName
    ensures forall i :: 0 <= i < |r| ==> r[i].content == if items[i].id == id then content else items[i].content
  {
    seq(|items|, i requires 0 <= i < |items| => if items[i].id == id then items[i].(content := content) else items[i])
  }

  /** Two edits of one entry: the later content wins. */
  lemma EditLastWins(items: seq<Item>, id: Id, first: string, second: string)
    ensures Edit(Edit(items, id, first), id, second) == Edit(items, id, second)
  {
  }

  /** An edit never changes what a delete of the same identifier leaves. */
  lemma {:induction false} EditThenDelete(items: seq<Item>, id: Id, content: string)
    ensures Delete(Edit(items, id, content), id) == Delete(items, id)
  {
    if items != [] {
      var edited := Edit(items, id, content);
      assert edited[1..] == Edit(items[1..], id, content);
      EditThenDelete(items[1..], id, content);
    }
  }

  /** The export with the quotes inside values doubled, as RFC 4180 asks. */
  function CorrectedExport(filtered: seq<Item>): string {
    Csv.EscapedDocument(Table(filtered))
  }

  /** Read back as RFC 4180 text, the corrected export gives the header and
      one row per item, whatever the values hold. */
  lemma CorrectedExportReadsBack(filtered: seq<Item>)
    ensures Csv.ParseDocument(CorrectedExport(filtered)) == Some(Table(filtered))
  {
    var rows := Table(filtered);
    forall i | 0 <= i < |rows| ensures |rows[i]| >= 1 {
      if i > 0 {
        assert rows[i] == Row(filtered[i - 1]);
      }
    }
    Csv.EscapedRoundTrip(rows);
  }

  /** Without a quote in any value, the corrected export is the page's own text. */
  lemma CorrectedExportAgrees(filtered: seq<Item>)
    requires forall t :: t in filtered ==> '"' !in t.userName && '"' !in t.content && '"' !in t.createdAt
    ensures CorrectedExport(filtered) == Export(filtered)
  {
    var rows := Table(filtered);
    forall i, j | 0 <= i < |rows| && 0 <= j < |rows[i]| ensures '"' !in rows[i][j] {
      if i > 0 {
        assert filtered[i - 1] in filtered;
        assert rows[i] == Row(filtered[i - 1]);
      } else {
        assert rows[i] == Header;
      }
    }
    Csv.EscapedDocumentQuoteFree(rows);
  }

  /** The page's own export of one testimonial whose content is `x","y` reads
      back, as RFC 4180 text, with four values in the item's row instead of
      three: the content is split at its quotes. */
  lemma ExportSplitsQuotedContent()
    ensures var item := Item(0, "x\",\"y", "d", "Ana");
            && Csv.ParseDocument(Export([item])) == Some([Header, ["Ana", "x", "y", "d"]])
            && Csv.ParseDocument(Export([item])) != Some(Table([item]))
  {
    var item := Item(0, "x\",\"y", "d", "Ana");
    var read := [Header, ["Ana", "x", "y", "d"]];
    assert "x\",\"y" == "x" + "\",\"" + "y";
    Csv.QuotedCommaLine("Ana", "x", "y", "d");
    assert Table([item]) == [Header, Row(item)];
    assert Csv.Lines(Table([item])) == Csv.Lines(read);
    assert Csv.QuoteFreeValues(read);
    Csv.EscapedDocumentQuoteFree(read);
    Csv.EscapedRoundTrip(read);
    assert |Table([item])[1]| == 3;
  }
}

=== FILE: admin_users_page.dfy ===
/** The list logic of the admin users page (src/app/admin/users/page.tsx):
    the role filter, the sort by name and the CSV export. */
module AdminUsersPage {
  import opened Wrappers
  import opened Strings
  import opened Lists
  import opened Sorting
  import Csv
  import opened Db

  /** The filter step: an empty role filter keeps every user; any other value
      keeps the users whose role is exactly that string. */
  function ByRole(users: seq<User>, roleFilter: string): (r: seq<User>)
    ensures forall u :: u in r <==> u in users && (roleFilter == "" || u.role == roleFilter)
    ensures multiset(r) <= multiset(users)
    ensures roleFilter == "" ==> r == users
  {
    if roleFilter != "" then Filter(users, (u: User) => u.role == roleFilter) else users
  }

  /** With every role one of the two the application assigns, the "USER" view
      and the "ADMIN" view together hold each user exactly once. */
  lemma RolesPartition(users: seq<User>)
    requires forall i :: 0 <= i < |users| ==> users[i].role == UserRole || users[i].role == AdminRole
    ensures multiset(ByRole(users, UserRole)) + multiset(ByRole(users, AdminRole)) == multiset(users)
  {
    var isUser := (u: User) => u.role == UserRole;
    var isAdmin := (u: User) => u.role == AdminRole;
    var notUser := (u: User) => !(u.role == UserRole);
    FilterSplits(users, isUser, notUser);
    assert Filter(users, notUser) == Filter(users, isAdmin) by {
      FilterSameOn(users, notUser, isAdmin);
    }
  }

  /** Filters by two conditions that agree on the list's elements give the same list. */
  lemma {:induction false} FilterSameOn(users: seq<User>, p: User -> bool, q: User -> bool)
    requires forall i :: 0 <= i < |users| ==> users[i].role == UserRole || users[i].role == AdminRole
    requires forall u: User :: (u.role == UserRole || u.role == AdminRole) ==> p(u) == q(u)
    ensures Filter(users, p) == Filter(users, q)
  {
    if users != [] {
      FilterSameOn(users[1..], p, q);
    }
  }

  /** The effect that recomputes `filtered`: copy, filter by role, sort by name
      in place with `localeCompare` (the total preorder `le`), arguments
      swapped for `"desc"`. */
  method Refresh(users: seq<User>, roleFilter: string, order: Direction,
                 le: (string, string) -> bool) returns (filtered: seq<User>)
    requires TotalPreorder(le)
    ensures multiset(filtered) == multiset(ByRole(users, roleFilter))
    ensures forall u :: u in filtered <==> u in users && (roleFilter == "" || u.role == roleFilter)
    ensures order == Asc ==> forall i, j :: 0 <= i < j < |filtered| ==> le(filtered[i].name, filtered[j].name)
    ensures order == Desc ==> forall i, j :: 0 <= i < j < |filtered| ==> le(filtered[j].name, filtered[i].name)
  {
    var result := users;
    if roleFilter != "" {
      result := Filter(result, (u: User) => u.role == roleFilter);
    }
    var a := new User[|result|](i requires 0 <= i < |result| => result[i]);
    assert a[..] == result;
    DirectedTotalPreorder(le, order);
    SortInPlace(a, (u: User) => u.name, Directed(le, order));
    filtered := a[..];
    forall u ensures u in filtered <==> u in result {
      assert u in filtered <==> u in multiset(filtered);
      assert u in result <==> u in multiset(result);
    }
  }

  const Header := ["Nome", "Email", "Perfil"]

  function Row(u: User): seq<string> {
    [u.name, u.email, u.role]
  }

  /** The header row followed by one row per shown user, in order. */
  function Table(filtered: seq<User>): seq<seq<string>>
  {
    [Header] + seq(|filtered|, i requires 0 <= i < |filtered| => Row(filtered[i]))
  }

  /** `exportToCSV`'s text: the header line, then one line per shown user. */
  function Export(filtered: seq<User>): string {
    Csv.Document(Table(filtered))
  }

  /** No value of the exported table holds a line break when no user's does. */
  lemma TableSingleLine(filtered: seq<User>)
    requires forall u :: u in filtered ==> '\n' !in u.name && '\n' !in u.email && '\n' !in u.role
    ensures Csv.SingleLineValues(Table(filtered))
  {
    var rows := Table(filtered);
    forall i, j | 0 <= i < |rows| && 0 <= j < |rows[i]| ensures '\n' !in rows[i][j] {
      if i > 0 {
        assert filtered[i - 1] in filtered;
        assert rows[i] == Row(filtered[i - 1]);
      } else {
        assert rows[i] == Header;
      }
    }
  }

  /** With no line break inside a value, the export has the header line and
      then one line per user, in the list's order, each value in quotes. */
  lemma ExportLines(filtered: seq<User>)
    requires forall u :: u in filtered ==> '\n' !in u.name && '\n' !in u.email && '\n' !in u.role
    ensures |Split(Export(filtered), '\n')| == |filtered| + 1
    ensures Split(Export(filtered), '\n')[0] ==
              Csv.Quote("Nome") + "," + Csv.Quote("Email") + "," + Csv.Quote("Perfil")
    ensures forall i :: 0 <= i < |filtered| ==>
              Split(Export(filtered), '\n')[i + 1] ==
                Csv.Quote(filtered[i].name) + "," + Csv.Quote(filtered[i].email) + "," + Csv.Quote(filtered[i].role)
  {
    var rows := Table(filtered);
    TableSingleLine(filtered);
    Csv.DocumentLines(rows);
    Csv.LineOfThree(Header[0], Header[1], Header[2]);
    forall i | 0 <= i < |filtered|
      ensures Csv.Lines(rows)[i + 1] ==
        Csv.Quote(filtered[i].name) + "," + Csv.Quote(filtered[i].email) + "," + Csv.Quote(filtered[i].role)
    {
      Csv.LineOfThree(filtered[i].name, filtered[i].email, filtered[i].role);
    }
  }

  /** The export with the quotes inside values doubled, as RFC 4180 asks. */
  function CorrectedExport(filtered: seq<User>): string {
    Csv.EscapedDocument(Table(filtered))
  }

  /** Read back as RFC 4180 text, the corrected export gives the header and
      one row per user, whatever the values hold. */
  lemma CorrectedExportReadsBack(filtered: seq<User>)
    ensures Csv.ParseDocument(CorrectedExport(filtered)) == Some(Table(filtered))
  {
    var rows := Table(filtered);
    forall i | 0 <= i < |rows| ensures |rows[i]| >= 1 {
      if i > 0 {
        assert rows[i] == Row(filtered[i - 1]);
      }
    }
    Csv.EscapedRoundTrip(rows);
  }

  /** Without a quote in any value, the corrected export is the page's own text. */
  lemma CorrectedExportAgrees(filtered: seq<User>)
    requires forall u :: u in filtered ==> '"' !in u.name && '"' !in u.email && '"' !in u.role
    ensures CorrectedExport(filtered) == Export(filtered)
  {
    var rows := Table(filtered);
    forall i, j | 0 <= i < |rows| && 0 <= j < |rows[i]| ensures '"' !in rows[i][j] {
      if i > 0 {
        assert filtered[i - 1] in filtered;
        assert rows[i] == Row(filtered[i - 1]);
      } else {
        assert rows[i] == Header;
      }
    }
    Csv.EscapedDocumentQuoteFree(rows);
  }
}

=== FILE: auth_options.dfy ===
/** The credentials sign-in and the session callbacks of the authentication
    configuration (src/lib/authOptions.ts). */
module AuthOptions {
  import opened Wrappers
  import opened Db

  const InvalidCredentials := "Invalid credentials"

  /** The submitted form; a field that was not sent is `None`. */
  datatype Credentials = Credentials(email: Option<string>, password: Option<string>)

  /** `authorize(credentials)`: the stored user whose email matches and whose
      hash `compare` accepts; every failure raises the same message. `compare`
      stands for bcrypt's `compare(plain, hash)`. */
  function Authorize(credentials: Option<Credentials>, users: map<Id, User>,
                     compare: (string, string) -> bool): (r: Result<User, string>)
    requires UniqueEmails(users)
    ensures r.Failure? ==> r.error == InvalidCredentials
    ensures r.Success? <==>
      && credentials.Some?
      && Truthy(credentials.value.email) && Truthy(credentials.value.password)
      && exists id :: id in users && users[id].email == credentials.value.email.value
                      && Truthy(users[id].password)
                      && compare(credentials.value.password.value, users[id].password.value)
    ensures r.Success? ==> r.value in users.Values && r.value.email == credentials.value.email.value
  {
    if credentials.None? || !Truthy(credentials.value.email) || !Truthy(credentials.value.password) then
      Failure(InvalidCredentials)
    else
      var email := credentials.value.email.value;
      var password := credentials.value.password.value;
      match FindByEmail(users, email)
      case None => Failure(InvalidCredentials)
      case Some(user) =>
        if !Truthy(user.password) then Failure(InvalidCredentials)
        else if !compare(password, user.password.value) then Failure(InvalidCredentials)
        else Success(user)
  }

  /** An unknown email and a wrong password are indistinguishable to the caller. */
  lemma CredentialSymmetry(unknown: Credentials, wrong: Credentials, users: map<Id, User>,
                           compare: (string, string) -> bool)
    requires UniqueEmails(users)
    requires unknown.email.Some? && !exists id :: id in users && users[id].email == unknown.email.value
    requires wrong.email.Some? && wrong.password.Some?
    requires forall id :: id in users && users[id].email == wrong.email.value && users[id].password.Some? ==>
               !compare(wrong.password.value, users[id].password.value)
    ensures Authorize(Some(unknown), users, compare) == Authorize(Some(wrong), users, compare)
  {
  }

  /** The claims the middleware reads from the session token. */
  datatype TokenClaims = TokenClaims(id: Option<Id>, role: Option<string>)

  /** The JSON Web Token object the `jwt` callback receives and fills in. */
  class Jwt {
    var id: Option<Id>
    var role: Option<string>
    var name: Option<string>
    var email: Option<string>

    constructor (name: Option<string>, email: Option<string>)
      ensures this.name == name && this.email == email && id.None? && role.None?
    {
      this.name := name;
      this.email := email;
      id := None;
      role := None;
    }

    function Claims(): TokenClaims
      reads this
    {
      TokenClaims(id, role)
    }
  }

  /** `callbacks.jwt({ token, user })`: on sign-in (`user` present) the user's id
      and role are copied into the token; the token object is returned. */
  method JwtCallback(token: Jwt, user: Option<User>) returns (r: Jwt)
    modifies token`id, token`role
    ensures r == token
    ensures user.Some? ==> token.id == Some(user.value.id) && token.role == Some(user.value.role)
    ensures user.None? ==> token.id == old(token.id) && token.role == old(token.role)
  {
    if user.Some? {
      token.id := Some(user.value.id);
      token.role := Some(user.value.role);
    }
    r := token;
  }

  /** `session.user` as the callbacks and the route handlers see it. */
  datatype SessionUser = SessionUser(id: Option<Id>, role: Option<string>, name: Option<string>,
                                     email: Option<string>)

  /** A session as `getServerSession` returns it. */
  datatype SessionData = SessionData(user: Option<SessionUser>, expires: string)

  /** The session object the `session` callback receives and fills in. */
  class Session {
    var user: SessionUser
    var expires: string

    constructor (user: SessionUser, expires: string)
      ensures this.user == user && this.expires == expires
    {
      this.user := user;
      this.expires := expires;
    }

    function Data(): SessionData
      reads this
    {
      SessionData(Some(user), expires)
    }
  }

  /** `callbacks.session({ session, token })`: the session user's id and role
      are taken from the token; the name, email and expiry are left alone. */
  method SessionCallback(session: Session, token: Jwt?) returns (r: Session)
    modifies session`user
    ensures r == session
    ensures token != null ==> session.user == old(session.user).(id := token.id, role := token.role)
    ensures token == null ==> session.user == old(session.user)
  {
    if token != null {
      session.user := session.user.(id := token.id, role := token.role);
    }
    r := session;
  }

  /** Signing in and then building the session gives the session the signed-in
      user's identifier and role. */
  method SignInSession(token: Jwt, session: Session, user: User) returns (data: SessionData)
    modifies token`id, token`role, session`user
    ensures data.user == Some(old(session.user).(id := Some(user.id), role := Some(user.role)))
    ensures data.expires == old(session.expires)
  {
    var t := JwtCallback(token, Some(user));
    var s := SessionCallback(session, t);
    data := s.Data();
  }
}

=== FILE: csv.dfy ===
/** The CSV text the admin pages export: every value wrapped in double quotes,
    values joined by `,`, rows joined by `\n`, embedded quotes left as they are.
    Beside it, a reader for RFC 4180 text and the quote-doubling writer that
    such a reader reads back. */
module Csv {
  import opened Wrappers
  import opened Strings

  /** `"${val}"`. */
  function Quote(v: string): string {
    "\"" + v + "\""
  }

  /** `row.map((val) => `"${val}"`).join(",")`. */
  function Line(fields: seq<string>): string {
    Join(",", seq(|fields|, i requires 0 <= i < |fields| => Quote(fields[i])))
  }

  function Lines(rows: seq<seq<string>>): seq<string>
  {
    seq(|rows|, i requires 0 <= i < |rows| => Line(rows[i]))
  }

  /** `[header, ...rows].map(line).join("\n")`, with `rows` here already including the header. */
  function Document(rows: seq<seq<string>>): string {
    Join("\n", Lines(rows))
  }

  /** A line of three values. */
  lemma LineOfThree(a: string, b: string, c: string)
    ensures Line([a, b, c]) == Quote(a) + "," + Quote(b) + "," + Quote(c)
  {
    var quoted := seq(3, i requires 0 <= i < 3 => Quote([a, b, c][i]));
    assert quoted == [Quote(a), Quote(b), Quote(c)];
    assert quoted[1..] == [Quote(b), Quote(c)];
    assert quoted[1..][1..] == [Quote(c)];
    assert Join(",", [Quote(c)]) == Quote(c);
    assert Join(",", [Quote(b), Quote(c)]) == Quote(b) + "," + Quote(c);
  }

  /** A line of four values. */
  lemma LineOfFour(a: string, b: string, c: string, d: string)
    ensures Line([a, b, c, d]) == Quote(a) + "," + (Quote(b) + "," + (Quote(c) + "," + Quote(d)))
  {
    var quoted := seq(4, i requires 0 <= i < 4 => Quote([a, b, c, d][i]));
    assert quoted == [Quote(a), Quote(b), Quote(c), Quote(d)];
    assert quoted[1..] == [Quote(b), Quote(c), Quote(d)];
    assert quoted[1..][1..] == [Quote(c), Quote(d)];
    assert quoted[1..][1..][1..] == [Quote(d)];
    assert Join(",", [Quote(d)]) == Quote(d);
    assert Join(",", [Quote(c), Quote(d)]) == Quote(c) + "," + Quote(d);
    assert Join(",", quoted[1..]) == Quote(b) + "," + (Quote(c) + "," + Quote(d));
  }

  /** A middle value holding `","` is written exactly as two values would be. */
  lemma QuotedCommaLine(a: string, b: string, c: string, d: string)
    ensures Line([a, b + "\",\"" + c, d]) == Line([a, b, c, d])
  {
    LineOfThree(a, b + "\",\"" + c, d);
    LineOfFour(a, b, c, d);
    assert Quote(b + "\",\"" + c) == Quote(b) + "," + Quote(c);
  }

  /** No value of any row contains a line break. */
  ghost predicate SingleLineValues(rows: seq<seq<string>>) {
    forall i, j :: 0 <= i < |rows| && 0 <= j < |rows[i]| ==> '\n' !in rows[i][j]
  }

  lemma {:induction false} JoinAvoids(sep: string, parts: seq<string>, c: char)
    requires c !in sep
    requires forall i :: 0 <= i < |parts| ==> c !in parts[i]
    ensures c !in Join(sep, parts)
  {
    if |parts| > 1 {
      JoinAvoids(sep, parts[1..], c);
    }
  }

  /** When no value holds a line break, the exported text has exactly one line
      per row (the header included) and line `i` is row `i` quoted and joined. */
  lemma DocumentLines(rows: seq<seq<string>>)
    requires |rows| >= 1
    requires SingleLineValues(rows)
    ensures Split(Document(rows), '\n') == Lines(rows)
    ensures |Split(Document(rows), '\n')| == |rows|
  {
    var lines := Lines(rows);
    forall i | 0 <= i < |lines| ensures '\n' !in lines[i] {
      var quoted := seq(|rows[i]|, j requires 0 <= j < |rows[i]| => Quote(rows[i][j]));
      forall j | 0 <= j < |quoted| ensures '\n' !in quoted[j] {
        assert quoted[j] == "\"" + rows[i][j] + "\"";
      }
      JoinAvoids(",", quoted, '\n');
    }
    SplitJoin(lines, '\n');
  }

  // ---------------------------------------------------------------------------
  // Reading the text back as RFC 4180 (section 2) describes: a value in double
  // quotes, a quote inside it written as two quotes, values separated by `,`
  // and records by a line break.

  /** Reads a quoted value whose opening quote has already been consumed;
      returns the value and the text after its closing quote. */
  function ParseField(s: string): (r: Option<(string, string)>)
    ensures r.Some? ==> |r.value.1| < |s|
    decreases |s|
  {
    if s == [] then None
    else if s[0] == '"' then
      if |s| > 1 && s[1] == '"' then
        match ParseField(s[2..])
        case None => None
        case Some(p) => Some(("\"" + p.0, p.1))
      else Some(("", s[1..]))
    else
      match ParseField(s[1..])
      case None => None
      case Some(p) => Some(([s[0]] + p.0, p.1))
  }

  /** A character other than a quote is taken into the value as it is. */
  lemma ParseFieldPlain(c: char, t: string)
    requires c != '"'
    ensures ParseField([c] + t) == match ParseField(t)
                                   case None => None
                                   case Some(p) => Some(([c] + p.0, p.1))
  {
    assert ([c] + t)[1..] == t;
  }

  /** Reads a whole text of quoted values into its records. */
  function ParseDocument(s: string): (r: Option<seq<seq<string>>>)
    ensures r.Some? ==> |r.value| >= 1 && |r.value[0]| >= 1
    decreases |s|
  {
    if s == [] || s[0] != '"' then None
    else
      match ParseField(s[1..])
      case None => None
      case Some(p) =>
        var (f, rest) := p;
        if rest == [] then Some([[f]])
        else if rest[0] == ',' then
          match ParseDocument(rest[1..])
          case None => None
          case Some(rows) => Some([[f] + rows[0]] + rows[1..])
        else if rest[0] == '\n' then
          match ParseDocument(rest[1..])
          case None => None
          case Some(rows) => Some([[f]] + rows)
        else None
  }

  /** A value holding the three characters `","` is read back as two values:
      the exported text does not keep the values apart. */
  lemma UnescapedQuoteSplitsValue()
    ensures Document([["x\",\"y"]]) == "\"x\",\"y\""
    ensures ParseDocument(Document([["x\",\"y"]])) == Some([["x", "y"]])
  {
    var s := "\"x\",\"y\"";
    assert Document([["x\",\"y"]]) == s by {
      assert Lines([["x\",\"y"]]) == [Line(["x\",\"y"])];
    }
    var closing := "\",\"y\"";
    assert closing[1] == ',' && closing[1..] == ",\"y\"";
    assert ParseField(closing) == Some(("", ",\"y\""));
    assert s[1..] == ['x'] + closing && (s[1..])[1..] == closing;
    ParseFieldPlain('x', closing);
    assert ['x'] + "" == "x";
    assert ParseField(s[1..]) == Some(("x", ",\"y\""));
    var last := "y\"";
    assert last[1..] == "\"" && ParseField("\"") == Some(("", ""));
    ParseFieldPlain('y', "\"");
    assert ['y'] + "" == "y";
    assert last == ['y'] + "\"";
    assert ParseField(last) == Some(("y", ""));
    assert "\"y\""[1..] == last;
    assert ParseDocument("\"y\"") == Some([["y"]]);
    assert ",\"y\""[1..] == "\"y\"";
    assert s[0] == '"';
    var joined := ["x"] + [["y"]][0];
    assert joined == ["x", "y"] by {
      assert [["y"]][0] == ["y"];
      assert |joined| == 2 && joined[0] == "x" && joined[1] == "y";
    }
    assert [joined] + [["y"]][1..] == [["x", "y"]];
    var rest := ",\"y\"";
    assert rest[0] == ',' && rest[1..] == "\"y\"";
    assert ParseDocument(rest[1..]) == Some([["y"]]);
    assert ParseDocument(s) == Some([["x"] + [["y"]][0]] + [["y"]][1..]);
  }

  // ---------------------------------------------------------------------------
  // The writer RFC 4180 asks for: quotes inside a value are doubled.

  /** Doubles every double quote of `v`. */
  function Escape(v: string): (r: string)
    ensures |r| >= |v|
  {
    if v == [] then []
    else (if v[0] == '"' then "\"\"" else [v[0]]) + Escape(v[1..])
  }

  function EscapedLine(fields: seq<string>): string {
    Join(",", seq(|fields|, i requires 0 <= i < |fields| => "\"" + Escape(fields[i]) + "\""))
  }

  function EscapedDocument(rows: seq<seq<string>>): string {
    Join("\n", seq(|rows|, i requires 0 <= i < |rows| => EscapedLine(rows[i])))
  }

  /** A value written with doubled quotes and closed by a quote is read back,
      as long as the text after it does not start with a quote. */
  lemma {:induction false} ParseEscapedField(v: string, rest: string)
    requires rest == [] || rest[0] != '"'
    ensures ParseField(Escape(v) + "\"" + rest) == Some((v, rest))
  {
    if v == [] {
      assert Escape(v) + "\"" + rest == "\"" + rest;
    } else {
      var s := Escape(v) + "\"" + rest;
      ParseEscapedField(v[1..], rest);
      if v[0] == '"' {
        assert s == "\"\"" + (Escape(v[1..]) + "\"" + rest);
        assert s[2..] == Escape(v[1..]) + "\"" + rest;
        assert "\"" + v[1..] == v;
      } else {
        assert s == [v[0]] + (Escape(v[1..]) + "\"" + rest);
        assert s[1..] == Escape(v[1..]) + "\"" + rest;
        assert [v[0]] + v[1..] == v;
      }
    }
  }

  /** One escaped record followed by nothing or by a line break and more text. */
  lemma {:induction false} ParseEscapedLine(fields: seq<string>, after: string)
    requires |fields| >= 1
    requires after == [] || after[0] == '\n'
    ensures ParseDocument(EscapedLine(fields) + after) ==
            if after == [] then Some([fields])
            else match ParseDocument(after[1..])
                 case None => None
                 case Some(rows) => Some([fields] + rows)
  {
    var quoted := seq(|fields|, i requires 0 <= i < |fields| => "\"" + Escape(fields[i]) + "\"");
    var s := EscapedLine(fields) + after;
    if |fields| == 1 {
      assert quoted == [quoted[0]];
      assert fields == [fields[0]];
      assert s == "\"" + (Escape(fields[0]) + "\"" + after);
      ParseEscapedField(fields[0], after);
      assert s[1..] == Escape(fields[0]) + "\"" + after;
    } else {
      var tail := fields[1..];
      var tailText := EscapedLine(tail) + after;
      assert quoted[1..] == seq(|tail|, i requires 0 <= i < |tail| => "\"" + Escape(tail[i]) + "\"");
      assert EscapedLine(fields) == quoted[0] + "," + EscapedLine(tail);
      var rest := "," + tailText;
      assert s == "\"" + (Escape(fields[0]) + "\"" + rest);
      assert s[1..] == Escape(fields[0]) + "\"" + rest;
      ParseEscapedField(fields[0], rest);
      assert rest[1..] == tailText;
      ParseEscapedLine(tail, after);
      assert [fields[0]] + tail == fields;
      assert ParseField(s[1..]) == Some((fields[0], rest));
      if after == [] {
        assert ParseDocument(tailText) == Some([tail]);
        assert [[fields[0]] + [tail][0]] + [tail][1..] == [fields];
      } else {
        match ParseDocument(after[1..])
        case None =>
        case Some(rows) =>
          var parsed := [tail] + rows;
          assert ParseDocument(tailText) == Some(parsed);
          assert [[fields[0]] + parsed[0]] + parsed[1..] == [fields] + rows;
      }
    }
  }

  /** Read back as RFC 4180 text, the escaped export gives exactly the rows
      written, whatever quotes, commas or line breaks the values hold. */
  lemma {:induction false} EscapedRoundTrip(rows: seq<seq<string>>)
    requires |rows| >= 1
    requires forall i :: 0 <= i < |rows| ==> |rows[i]| >= 1
    ensures ParseDocument(EscapedDocument(rows)) == Some(rows)
  {
    var lines := seq(|rows|, i requires 0 <= i < |rows| => EscapedLine(rows[i]));
    if |rows| == 1 {
      assert lines == [lines[0]];
      assert rows == [rows[0]];
      ParseEscapedLine(rows[0], "");
      assert EscapedDocument(rows) == EscapedLine(rows[0]) + "";
    } else {
      var tail := rows[1..];
      assert lines[1..] == seq(|tail|, i requires 0 <= i < |tail| => EscapedLine(tail[i]));
      assert EscapedDocument(rows) == EscapedLine(rows[0]) + ("\n" + EscapedDocument(tail));
      EscapedRoundTrip(tail);
      ParseEscapedLine(rows[0], "\n" + EscapedDocument(tail));
      assert ("\n" + EscapedDocument(tail))[1..] == EscapedDocument(tail);
      assert [rows[0]] + tail == rows;
    }
  }

  /** A value without quotes is written the same way by both writers. */
  lemma {:induction false} EscapeQuoteFree(v: string)
    requires '"' !in v
    ensures Escape(v) == v
  {
    if v != [] {
      assert v[1..] + [] == v[1..];
      EscapeQuoteFree(v[1..]);
      assert [v[0]] + v[1..] == v;
    }
  }

  /** No value of any row contains a double quote. */
  ghost predicate QuoteFreeValues(rows: seq<seq<string>>) {
    forall i, j :: 0 <= i < |rows| && 0 <= j < |rows[i]| ==> '"' !in rows[i][j]
  }

  /** When no value holds a quote, the escaping writer produces the very text
      of the exported one: the correction changes nothing else. */
  lemma EscapedDocumentQuoteFree(rows: seq<seq<string>>)
    requires QuoteFreeValues(rows)
    ensures EscapedDocument(rows) == Document(rows)
  {
    forall i | 0 <= i < |rows| ensures EscapedLine(rows[i]) == Line(rows[i]) {
      forall j | 0 <= j < |rows[i]| ensures Escape(rows[i][j]) == rows[i][j] {
        EscapeQuoteFree(rows[i][j]);
      }
      assert seq(|rows[i]|, j requires 0 <= j < |rows[i]| => "\"" + Escape(rows[i][j]) + "\"")
          == seq(|rows[i]|, j requires 0 <= j < |rows[i]| => Quote(rows[i][j]));
    }
    assert seq(|rows|, i requires 0 <= i < |rows| => EscapedLine(rows[i])) == Lines(rows);
  }
}

=== FILE: db.dfy ===
/** The two tables the route handlers use, `User` and `Testimonial`, as one
    in-memory store standing for the Prisma client. Identifiers are allocated by
    the store; timestamps are milliseconds since the epoch. */
module Db {
  import opened Wrappers

  type Id = nat

  const UserRole := "USER"
  const AdminRole := "ADMIN"

  /** A `User` row. `password` holds a hash and may be null; the two reset
      fields are null unless a reset is pending. */
  datatype User = User(
    id: Id,
    name: string,
    email: string,
    password: Option<string>,
    role: string,
    resetToken: Option<string>,
    resetTokenExpiry: Option<int>,
    createdAt: int)

  /** A `Testimonial` row: its owner, the columns the creating request supplied
      (`content` among them) and its creation time. */
  datatype Testimonial = Testimonial(
    id: Id,
    userId: Id,
    fields: map<string, string>,
    createdAt: int)

  /** The primary key of `Testimonial`: some stored row already has `id`. */
  predicate IdTaken(testimonials: seq<Testimonial>, id: Id) {
    exists i :: 0 <= i < |testimonials| && testimonials[i].id == id
  }

  /** The unique constraint on `User.email`. */
  ghost predicate UniqueEmails(users: map<Id, User>) {
    forall a, b :: a in users && b in users && users[a].email == users[b].email ==> a == b
  }

  /** `prisma.user.findUnique({ where: { email } })`. */
  function FindByEmail(users: map<Id, User>, email: string): (r: Option<User>)
    requires UniqueEmails(users)
    ensures r.Some? <==> exists id :: id in users && users[id].email == email
    ensures r.Some? ==> r.value.email == email && r.value in users.Values
  {
    if exists id :: id in users && users[id].email == email then
      var id :| id in users && users[id].email == email;
      Some(users[id])
    else None
  }

  /** The rows of `users` with identifier below `bound`, in identifier order. */
  function Rows(users: map<Id, User>, bound: nat): (r: seq<User>)
    requires forall id :: id in users ==> users[id].id == id
    ensures forall i :: 0 <= i < |r| ==> r[i].id < bound && r[i].id in users && users[r[i].id] == r[i]
    ensures forall id :: id in users && id < bound ==> users[id] in r
    ensures forall i, j :: 0 <= i < j < |r| ==> r[i].id < r[j].id
  {
    if bound == 0 then []
    else
      var prefix := Rows(users, bound - 1);
      if bound - 1 in users then prefix + [users[bound - 1]] else prefix
  }

  class Store {
    var users: map<Id, User>
    var nextUserId: Id
    var testimonials: seq<Testimonial>
    var nextTestimonialId: Id

    /** Keys name their rows, user identifiers come from the counter, emails
        are unique, a pending reset token has an expiry, and every testimonial
        belongs to an existing user and has an identifier of its own. */
    ghost predicate Valid()
      reads this
    {
      && (forall id :: id in users ==> users[id].id == id && id < nextUserId)
      && UniqueEmails(users)
      && (forall id :: id in users && users[id].resetToken.Some? ==> users[id].resetTokenExpiry.Some?)
      && (forall i :: 0 <= i < |testimonials| ==> testimonials[i].userId in users)
      && (forall i, j :: 0 <= i < j < |testimonials| ==> testimonials[i].id != testimonials[j].id)
    }

    constructor ()
      ensures Valid()
      ensures users == map[] && testimonials == []
    {
      users := map[];
      nextUserId := 0;
      testimonials := [];
      nextTestimonialId := 0;
    }

    /** Every user, each once, in creation order: what `prisma.user.findMany` scans. */
    function UserRows(): (r: seq<User>)
      requires Valid()
      reads this
      ensures forall u :: u in r <==> u in users.Values
      ensures forall i, j :: 0 <= i < j < |r| ==> r[i] != r[j]
    {
      Rows(users, nextUserId)
    }
  }
}

=== FILE: forgot_password.dfy ===
/** The password-reset endpoint (src/app/api/forgot-password/route.ts): POST
    issues a token for an email, PUT spends a token on a new password. The
    random bytes, the clock, the bcrypt hash and the mail service are inputs. */
module ForgotPassword {
  import opened Wrappers
  import opened Db

  newtype byte = x: int | 0 <= x < 256

  /** One hour, in milliseconds. */
  const TokenLifetimeMs := 3600 * 1000

  predicate IsHexDigit(c: char) {
    '0' <= c <= '9' || 'a' <= c <= 'f'
  }

  function HexDigit(n: nat): (c: char)
    requires n < 16
    ensures IsHexDigit(c)
  {
    if n < 10 then ('0' as int + n) as char else ('a' as int + n - 10) as char
  }

  function DigitValue(c: char): (n: nat)
    requires IsHexDigit(c)
    ensures n < 16 && HexDigit(n) == c
  {
    if '0' <= c <= '9' then c as int - '0' as int else c as int - 'a' as int + 10
  }

  /** `buffer.toString("hex")`: two lower-case digits per byte, high nibble first. */
  function Hex(bytes: seq<byte>): (s: string)
    ensures |s| == 2 * |bytes|
    ensures forall i :: 0 <= i < |s| ==> IsHexDigit(s[i])
  {
    if bytes == [] then ""
    else [HexDigit(bytes[0] as int / 16), HexDigit(bytes[0] as int % 16)] + Hex(bytes[1..])
  }

  /** Reads hex text back into bytes. */
  function Unhex(s: string): (bytes: seq<byte>)
    requires |s| % 2 == 0
    requires forall i :: 0 <= i < |s| ==> IsHexDigit(s[i])
    ensures |bytes| == |s| / 2
  {
    if s == [] then []
    else [(DigitValue(s[0]) * 16 + DigitValue(s[1])) as byte] + Unhex(s[2..])
  }

  /** Hex encoding loses nothing: distinct random bytes give distinct tokens. */
  lemma {:induction false} UnhexHex(bytes: seq<byte>)
    ensures Unhex(Hex(bytes)) == bytes
  {
    if bytes != [] {
      var s := Hex(bytes);
      var b := bytes[0] as int;
      assert DigitValue(s[0]) == b / 16 && DigitValue(s[1]) == b % 16;
      assert s[2..] == Hex(bytes[1..]);
      UnhexHex(bytes[1..]);
    }
  }

  /** The token made from `crypto.randomBytes(32)`: 64 hex digits. */
  lemma TokenShape(random: seq<byte>)
    requires |random| == 32
    ensures |Hex(random)| == 64
  {
  }

  /** `${NEXTAUTH_URL}/reset-password?token=${token}`. */
  function ResetLink(baseUrl: string, token: string): string {
    baseUrl + "/reset-password?token=" + token
  }

  /** A decoded JSON request body; a field that is absent or not a string is
      `None`. A body that is not JSON at all is `None` in place of the body. */
  datatype PostBody = PostBody(email: Option<string>)
  datatype PutBody = PutBody(password: Option<string>, token: Option<string>)

  /** The reply: the schema's error (400), a JSON message with its status, or
      the framework's 500 for an exception the handler does not catch. */
  datatype Response = ValidationFailed | Json(status: int, message: string) | Uncaught {
    function Status(): int {
      if ValidationFailed? then 400 else if Uncaught? then 500 else status
    }
  }

  /** POST's update: `resetToken` and `resetTokenExpiry` of user `id` are set;
      no other field and no other user changes. */
  function IssueToken(users: map<Id, User>, id: Id, token: string, expiry: int): (r: map<Id, User>)
    requires id in users
    ensures r.Keys == users.Keys
    ensures r[id].resetToken == Some(token) && r[id].resetTokenExpiry == Some(expiry)
    ensures r[id] == users[id].(resetToken := r[id].resetToken, resetTokenExpiry := r[id].resetTokenExpiry)
    ensures forall other :: other in users && other != id ==> r[other] == users[other]
  {
    users[id := users[id].(resetToken := Some(token), resetTokenExpiry := Some(expiry))]
  }

  /** PUT's update: the new hash is stored and both reset fields are cleared in
      one write; no other field and no other user changes. */
  function ConsumeToken(users: map<Id, User>, id: Id, hashed: string): (r: map<Id, User>)
    requires id in users
    ensures r.Keys == users.Keys
    ensures r[id].password == Some(hashed) && r[id].resetToken.None? && r[id].resetTokenExpiry.None?
    ensures r[id] == users[id].(password := r[id].password, resetToken := None, resetTokenExpiry := None)
    ensures forall other :: other in users && other != id ==> r[other] == users[other]
  {
    users[id := users[id].(password := Some(hashed), resetToken := None, resetTokenExpiry := None)]
  }

  /** User `id` holds the reset token `token`. */
  ghost predicate Holds(users: map<Id, User>, id: Id, token: string) {
    id in users && users[id].resetToken == Some(token)
  }

  /** `user.resetTokenExpiry! < new Date()`: strictly before now. A missing
      expiry compares as 0. */
  predicate Expired(expiry: Option<int>, now: int) {
    match expiry
    case None => 0 < now
    case Some(e) => e < now
  }

  /** A second request for the same user replaces the first token and expiry. */
  lemma IssueOverwrites(users: map<Id, User>, id: Id, t1: string, e1: int, t2: string, e2: int)
    requires id in users
    ensures IssueToken(IssueToken(users, id, t1, e1), id, t2, e2) == IssueToken(users, id, t2, e2)
  {
  }

  /** Until its expiry, and not after, the freshly issued token is accepted:
      its user holds it, and no one else does unless they already did. */
  lemma IssuedTokenLifetime(users: map<Id, User>, id: Id, token: string, issuedAt: int, now: int)
    requires id in users
    requires forall other :: other != id ==> !Holds(users, other, token)
    ensures var after := IssueToken(users, id, token, issuedAt + TokenLifetimeMs);
            && Holds(after, id, token)
            && (forall other :: other != id ==> !Holds(after, other, token))
            && (Expired(after[id].resetTokenExpiry, now) <==> now > issuedAt + 3600000)
  {
    var after := IssueToken(users, id, token, issuedAt + TokenLifetimeMs);
    forall other | other != id ensures !Holds(after, other, token) {
      assert !Holds(users, other, token);
    }
  }

  /** Single use: once user `id` has spent `token`, nobody holds it, provided
      nobody else held it. */
  lemma SpentTokenIsGone(users: map<Id, User>, id: Id, token: string, hashed: string)
    requires Holds(users, id, token)
    requires forall other :: other != id ==> !Holds(users, other, token)
    ensures forall any :: !Holds(ConsumeToken(users, id, hashed), any, token)
  {
    var after := ConsumeToken(users, id, hashed);
    forall any ensures !Holds(after, any, token) {
      if any != id {
        assert !Holds(users, any, token);
      }
    }
  }

  /** `POST`: validate the email, look the user up, write a fresh token and its
      expiry, then mail the reset link. The token stays written when the mail
      fails. `send(email, link)` is the mail service's success flag. A body
      that is not JSON makes `req.json()` throw outside any `try`. */
  method Post(db: Store, body: Option<PostBody>, isEmail: string -> bool, random: seq<byte>, now: int,
              baseUrl: string, send: (string, string) -> bool) returns (r: Response)
    requires db.Valid()
    requires |random| == 32
    modifies db`users
    ensures db.Valid()
    ensures body.None? ==> r == Uncaught && db.users == old(db.users)
    ensures body.Some? && !(body.value.email.Some? && isEmail(body.value.email.value)) ==>
              r == ValidationFailed && db.users == old(db.users)
    ensures body.Some? && body.value.email.Some? && isEmail(body.value.email.value) ==>
              match FindByEmail(old(db.users), body.value.email.value)
              case None =>
                r == Json(404, "Usuário não existe") && db.users == old(db.users)
              case Some(user) =>
                && db.users == IssueToken(old(db.users), user.id, Hex(random), now + TokenLifetimeMs)
                && r == if send(body.value.email.value, ResetLink(baseUrl, Hex(random)))
                        then Json(200, "E-mail enviado")
                        else Json(500, "Erro ao enviar e-mail")
  {
    if body.None? {
      return Uncaught;
    }
    if !(body.value.email.Some? && isEmail(body.value.email.value)) {
      return ValidationFailed;
    }
    var email := body.value.email.value;
    var found := FindByEmail(db.users, email);
    if found.None? {
      return Json(404, "Usuário não existe");
    }
    var user := found.value;
    var token := Hex(random);
    var expires := now + TokenLifetimeMs;
    db.users := IssueToken(db.users, user.id, token, expires);
    var link := ResetLink(baseUrl, token);
    if !send(email, link) {
      return Json(500, "Erro ao enviar e-mail");
    }
    r := Json(200, "E-mail enviado");
  }

  /** `PUT`: find some user holding the token (`findFirst`; which one, when
      several do, is not determined), reject it when absent or expired,
      otherwise store the new hash and clear the reset fields. A body that is
      not JSON makes `req.json()` throw outside any `try`. */
  method Put(db: Store, body: Option<PutBody>, now: int, hash: string -> string) returns (r: Response)
    requires db.Valid()
    modifies db`users
    ensures db.Valid()
    ensures r in {Uncaught, ValidationFailed, Json(400, "Token inválido"), Json(200, "Senha alterada com sucesso")}
    ensures r.Status() != 200 ==> db.users == old(db.users)
    ensures body.None? <==> r == Uncaught
    ensures r == ValidationFailed <==> body.Some? && (body.value.password.None? || body.value.token.None?)
    ensures body.Some? && body.value.password.Some? && body.value.token.Some? &&
            (forall id :: Holds(old(db.users), id, body.value.token.value) ==>
                          Expired(old(db.users)[id].resetTokenExpiry, now)) ==>
              r == Json(400, "Token inválido")
    ensures body.Some? && body.value.password.Some? && body.value.token.Some? &&
            (exists id :: Holds(old(db.users), id, body.value.token.value)) &&
            (forall id :: Holds(old(db.users), id, body.value.token.value) ==>
                          !Expired(old(db.users)[id].resetTokenExpiry, now)) ==>
              r.Status() == 200
    ensures r.Status() == 200 ==>
              exists id :: Holds(old(db.users), id, body.value.token.value)
                        && !Expired(old(db.users)[id].resetTokenExpiry, now)
                        && db.users == ConsumeToken(old(db.users), id, hash(body.value.password.value))
  {
    if body.None? {
      return Uncaught;
    }
    if body.value.password.None? || body.value.token.None? {
      return ValidationFailed;
    }
    var password, token := body.value.password.value, body.value.token.value;
    if !exists id :: id in db.users && db.users[id].resetToken == Some(token) {
      return Json(400, "Token inválido");
    }
    var id :| id in db.users && db.users[id].resetToken == Some(token);
    if Expired(db.users[id].resetTokenExpiry, now) {
      return Json(400, "Token inválido");
    }
    db.users := ConsumeToken(db.users, id, hash(password));
    r := Json(200, "Senha alterada com sucesso");
  }

  /** Spending the same token twice: when at most one user held it, the second
      attempt is rejected whatever the time. */
  method SpendTwice(db: Store, body: PutBody, now: int, later: int, hash: string -> string)
    returns (first: Response, second: Response)
    requires db.Valid()
    requires body.password.Some? && body.token.Some?
    requires forall a, b :: Holds(db.users, a, body.token.value) && Holds(db.users, b, body.token.value) ==> a == b
    modifies db`users
    ensures first.Status() == 200 ==> second == Json(400, "Token inválido")
  {
    first := Put(db, Some(body), now, hash);
    if first.Status() == 200 {
      ghost var before := old(db.users);
      ghost var id :| Holds(before, id, body.token.value)
                      && db.users == ConsumeToken(before, id, hash(body.password.value));
      SpentTokenIsGone(before, id, body.token.value, hash(body.password.value));
    }
    second := Put(db, Some(body), later, hash);
  }
}

=== FILE: is_admin.dfy ===
/** The administrator gate (src/utils/isAdmin.ts). */
module AdminGate {
  import opened Wrappers
  import opened Db
  import opened AuthOptions

  /** `isAdmin()`: the session itself when its user's role is exactly
      `"ADMIN"`, otherwise `null`. */
  function IsAdmin(session: Option<SessionData>): (r: Option<SessionData>)
    ensures r.Some? <==> session.Some? && session.value.user.Some? && session.value.user.value.role == Some("ADMIN")
    ensures r.Some? ==> r == session
  {
    match session
    case None => None
    case Some(s) =>
      if s.user.None? || s.user.value.role != Some(AdminRole) then None else session
  }

  /** The comparison is case-sensitive: a role written `"admin"` is refused. */
  lemma LowerCaseRoleRefused(s: SessionData)
    requires s.user.Some? && s.user.value.role == Some("admin")
    ensures IsAdmin(Some(s)).None?
  {
  }
}

=== FILE: lists.dfy ===
/** `Array.prototype.filter` over immutable sequences, and the facts the list
    updaters of the pages rely on. */
module Lists {

  /** `s.filter(p)`: the elements satisfying `p`, in their original order. */
  function Filter<T(!new)>(s: seq<T>, p: T -> bool): (r: seq<T>)
    ensures |r| <= |s|
    ensures forall x :: x in r <==> x in s && p(x)
    ensures multiset(r) <= multiset(s)
  {
    if s == [] then []
    else
      assert s == [s[0]] + s[1..];
      (if p(s[0]) then [s[0]] else []) + Filter(s[1..], p)
  }

  /** `filter` keeps every copy of an element that passes and no copy of one
      that does not. */
  lemma {:induction false} FilterCount<T(!new)>(s: seq<T>, p: T -> bool, x: T)
    ensures multiset(Filter(s, p))[x] == if p(x) then multiset(s)[x] else 0
  {
    if s != [] {
      assert s == [s[0]] + s[1..];
      FilterCount(s[1..], p, x);
    }
  }

  /** Filtering keeps relative order: it distributes over concatenation. */
  lemma {:induction false} FilterAppend<T(!new)>(a: seq<T>, b: seq<T>, p: T -> bool)
    ensures Filter(a + b, p) == Filter(a, p) + Filter(b, p)
  {
    if a != [] {
      assert (a + b)[1..] == a[1..] + b;
      FilterAppend(a[1..], b, p);
    } else {
      assert a + b == b;
    }
  }

  /** When every element satisfies `p`, filtering returns the list unchanged. */
  lemma {:induction false} FilterAll<T(!new)>(s: seq<T>, p: T -> bool)
    requires forall i :: 0 <= i < |s| ==> p(s[i])
    ensures Filter(s, p) == s
  {
    if s != [] {
      FilterAll(s[1..], p);
    }
  }

  /** Two filters commute: the order in which two conditions are applied
      does not matter. */
  lemma {:induction false} FilterCommute<T(!new)>(s: seq<T>, p: T -> bool, q: T -> bool)
    ensures Filter(Filter(s, p), q) == Filter(Filter(s, q), p)
  {
    if s != [] {
      var h := [s[0]];
      assert s == h + s[1..];
      FilterAppend(h, s[1..], p);
      FilterAppend(h, s[1..], q);
      FilterAppend(Filter(h, p), Filter(s[1..], p), q);
      FilterAppend(Filter(h, q), Filter(s[1..], q), p);
      FilterCommute(s[1..], p, q);
    }
  }

  /** Filters by two conditions that agree on every element give the same list. */
  lemma {:induction false} FilterSame<T(!new)>(s: seq<T>, p: T -> bool, q: T -> bool)
    requires forall x :: p(x) == q(x)
    ensures Filter(s, p) == Filter(s, q)
  {
    if s != [] {
      FilterSame(s[1..], p, q);
    }
  }

  /** A filter and the filter by the opposite condition split a list between
      them: every element lands in exactly one of the two. */
  lemma {:induction false} FilterSplits<T(!new)>(s: seq<T>, p: T -> bool, q: T -> bool)
    requires forall x :: q(x) == !p(x)
    ensures multiset(Filter(s, p)) + multiset(Filter(s, q)) == multiset(s)
  {
    if s != [] {
      assert s == [s[0]] + s[1..];
      FilterSplits(s[1..], p, q);
    }
  }
}

=== FILE: middleware.dfy ===
/** The route guard (src/middleware.ts): a decision on every matched request,
    from its path, its query string and the session token, if any. */
module Middleware {
  import opened Wrappers
  import opened Strings
  import opened Db
  import opened AuthOptions

  /** What the guard does with a request: return `null` (continue untouched),
      redirect to a path with a query string, or `NextResponse.next()`. */
  datatype Decision = Pass | Redirect(path: string, search: string) | Next

  predicate IsAuthPage(path: string) {
    StartsWith(path, "/login") || StartsWith(path, "/forgot-password")
  }

  predicate HasAdminRole(token: TokenClaims) {
    token.role == Some(AdminRole)
  }

  /** The `from` value: the path, followed by the query string when there is one. */
  function ReturnTo(path: string, search: string): string {
    if search != "" then path + search else path
  }

  /** `/login?from=${encodeURIComponent(from)}`; `encode` is `encodeURIComponent`. */
  function ToLogin(path: string, search: string, encode: string -> string): Decision {
    Redirect("/login", "?from=" + encode(ReturnTo(path, search)))
  }

  /** The body of `middleware(req)`: auth pages first, then the testimonials
      area, then the admin area. */
  function Guard(path: string, search: string, token: Option<TokenClaims>,
                 encode: string -> string): (d: Decision)
    ensures d.Pass? ==> IsAuthPage(path)
    ensures d.Redirect? ==> d in {Redirect("/admin", ""), Redirect("/testimonials", ""), ToLogin(path, search, encode)}
  {
    if IsAuthPage(path) then
      if token.Some? then
        Redirect(if HasAdminRole(token.value) then "/admin" else "/testimonials", "")
      else Pass
    else if StartsWith(path, "/testimonials") && token.None? then
      ToLogin(path, search, encode)
    else if StartsWith(path, "/admin") then
      if token.None? then ToLogin(path, search, encode)
      else if !HasAdminRole(token.value) then Redirect("/testimonials", "")
      else Next
    else Next
  }

  /** Signed in on an auth page: an administrator goes to `/admin`, anyone else to `/testimonials`. */
  lemma AuthPageSignedIn(path: string, search: string, token: TokenClaims, encode: string -> string)
    requires IsAuthPage(path)
    ensures Guard(path, search, Some(token), encode) ==
            Redirect(if token.role == Some("ADMIN") then "/admin" else "/testimonials", "")
  {
  }

  /** The request continues untouched exactly on an auth page without a token. */
  lemma PassOnlyOnAuthPage(path: string, search: string, token: Option<TokenClaims>, encode: string -> string)
    ensures Guard(path, search, token, encode) == Pass <==> IsAuthPage(path) && token.None?
  {
  }

  /** Without a token, the testimonials and admin areas send to the login page,
      which gets the path and, if present, the query string as `from`. */
  lemma ProtectedAreaSignedOut(path: string, search: string, encode: string -> string)
    requires !IsAuthPage(path)
    requires StartsWith(path, "/testimonials") || StartsWith(path, "/admin")
    ensures Guard(path, search, None, encode) == Redirect("/login", "?from=" + encode(path + search))
  {
    assert search == "" ==> path + search == path;
  }

  /** A signed-in user who is not an administrator is sent from the admin area
      to `/testimonials`, never refused. */
  lemma AdminAreaWrongRole(path: string, search: string, token: TokenClaims, encode: string -> string)
    requires !IsAuthPage(path) && StartsWith(path, "/admin")
    requires token.role != Some("ADMIN")
    ensures Guard(path, search, Some(token), encode) == Redirect("/testimonials", "")
  {
  }

  /** Signed in, outside the auth pages: an administrator anywhere, and anyone
      outside the admin area, goes on to the page. */
  lemma SignedInProceeds(path: string, search: string, token: TokenClaims, encode: string -> string)
    requires !IsAuthPage(path)
    requires token.role == Some("ADMIN") || !StartsWith(path, "/admin")
    ensures Guard(path, search, Some(token), encode) == Next
  {
  }

  lemma {:induction false} PrefixChar(s: string, p: string, i: nat)
    requires StartsWith(s, p) && i < |p|
    ensures i < |s| && s[i] == p[i]
  {
    assert s[..|p|][i] == s[i];
  }

  /** The second character of a path tells the guard's four prefixes apart. */
  lemma SecondChar(path: string)
    ensures StartsWith(path, "/login") ==> path[1] == 'l'
    ensures StartsWith(path, "/forgot-password") ==> path[1] == 'f'
    ensures StartsWith(path, "/admin") ==> path[1] == 'a'
    ensures StartsWith(path, "/testimonials") ==> path[1] == 't'
  {
    if StartsWith(path, "/login") { PrefixChar(path, "/login", 1); }
    if StartsWith(path, "/forgot-password") { PrefixChar(path, "/forgot-password", 1); }
    if StartsWith(path, "/admin") { PrefixChar(path, "/admin", 1); }
    if StartsWith(path, "/testimonials") { PrefixChar(path, "/testimonials", 1); }
  }

  /** A redirect issued by the guard is not redirected again when followed
      with the same token: there are no redirect loops. */
  lemma {:induction false} RedirectSettles(path: string, search: string, token: Option<TokenClaims>,
                                           encode: string -> string)
    ensures var d := Guard(path, search, token, encode);
            d.Redirect? ==> !Guard(d.path, d.search, token, encode).Redirect?
  {
    var d := Guard(path, search, token, encode);
    if d.Redirect? {
      SecondChar(d.path);
      assert StartsWith(d.path, d.path);
    }
  }

  /** `config.matcher`: `/admin/:path*`, `/login`, `/forgot-password`,
      `/testimonials/:path*`; the middleware runs on these paths only. */
  predicate Matched(path: string) {
    || path == "/admin" || StartsWith(path, "/admin/")
    || path == "/login" || path == "/forgot-password"
    || path == "/testimonials" || StartsWith(path, "/testimonials/")
  }

  /** The request as `withAuth` handles it: its `authorized` callback accepts
      every token, so on a matched path the guard alone decides; other paths are
      not intercepted. */
  function Handle(path: string, search: string, token: Option<TokenClaims>,
                  encode: string -> string): Decision
  {
    if Matched(path) then Guard(path, search, token, encode) else Next
  }

  /** On a matched path the guard's prefix tests agree with the matcher: the
      auth pages are exactly `/login` and `/forgot-password`. */
  lemma MatchedAuthPages(path: string)
    requires Matched(path)
    ensures IsAuthPage(path) <==> path == "/login" || path == "/forgot-password"
  {
    SecondChar(path);
    if StartsWith(path, "/admin/") { PrefixChar(path, "/admin/", 1); }
    if StartsWith(path, "/testimonials/") { PrefixChar(path, "/testimonials/", 1); }
    assert StartsWith(path, path);
  }

  /** A path under `/admin/` or `/testimonials/` also starts with the area's name. */
  lemma AreaPrefix(path: string)
    ensures StartsWith(path, "/admin/") ==> StartsWith(path, "/admin")
    ensures StartsWith(path, "/testimonials/") ==> StartsWith(path, "/testimonials")
  {
    if StartsWith(path, "/admin/") {
      assert path[..6] == path[..7][..6];
    }
    if StartsWith(path, "/testimonials/") {
      assert path[..13] == path[..14][..13];
    }
  }

  /** Signed out on a matched path: the two auth pages load, and every other
      matched path sends to the login page with the path to return to. */
  lemma HandleSignedOut(path: string, search: string, encode: string -> string)
    requires Matched(path)
    ensures Handle(path, search, None, encode) ==
              if path == "/login" || path == "/forgot-password" then Pass else ToLogin(path, search, encode)
  {
    MatchedAuthPages(path);
    AreaPrefix(path);
    assert StartsWith(path, path);
  }

  /** Signed in on a matched path: the auth pages send to the role's home, the
      admin area sends a non-administrator to `/testimonials`, and everything
      else goes on to the page. */
  lemma HandleSignedIn(path: string, search: string, token: TokenClaims, encode: string -> string)
    requires Matched(path)
    ensures Handle(path, search, Some(token), encode) ==
              if path == "/login" || path == "/forgot-password" then
                Redirect(if HasAdminRole(token) then "/admin" else "/testimonials", "")
              else if (path == "/admin" || StartsWith(path, "/admin/")) && !HasAdminRole(token) then
                Redirect("/testimonials", "")
              else Next
  {
    MatchedAuthPages(path);
    AreaPrefix(path);
    SecondChar(path);
    assert StartsWith(path, path);
  }
}

=== FILE: register.dfy ===
/** The registration endpoint (src/app/api/register/route.ts). `isEmail` is
    the schema's email check and `hash` bcrypt's hash. */
module Register {
  import opened Wrappers
  import opened Db
  import opened AuthOptions

  /** One property of the decoded JSON body: absent, a string, or a value of
      another JSON type, named as zod names it (`"number"`, `"null"`, ...). */
  datatype Field = Missing | Str(s: string) | Other(kind: string)

  /** The decoded JSON body: an object with the three properties, or a value
      of another JSON type. */
  datatype RegisterBody = Fields(name: Field, email: Field, password: Field) | NotObject(kind: string)

  /** The reply; `Uncaught` is the framework's 500 for an exception the
      handler does not catch. */
  datatype Outcome = Invalid(issues: seq<string>) | EmailTaken | Registered(id: Id) | Uncaught {
    function Status(): int {
      if Registered? then 201 else if Uncaught? then 500 else 400
    }
  }

  /** The schema accepts the body: an object with a name of at least 4
      characters, a valid email and a password of at least 6 characters, all
      strings. */
  predicate Acceptable(body: RegisterBody, isEmail: string -> bool) {
    && body.Fields?
    && body.name.Str? && |body.name.s| >= 4
    && body.email.Str? && isEmail(body.email.s)
    && body.password.Str? && |body.password.s| >= 6
  }

  /** The message for a plain `z.string()` property that is not a string. */
  function NotString(f: Field): string
    requires !f.Str?
  {
    if f.Missing? then "Required" else "Expected string, received " + f.kind
  }

  /** The schema's messages: one for a body that is not an object, otherwise
      one per failing property, in property order. The name's own message
      covers both an absent name and one that is not a string. */
  function Issues(body: RegisterBody, isEmail: string -> bool): (issues: seq<string>)
    ensures issues == [] <==> Acceptable(body, isEmail)
    ensures body.NotObject? ==> issues == ["Expected object, received " + body.kind]
    ensures body.Fields? ==> |issues| <= 3
  {
    if body.NotObject? then ["Expected object, received " + body.kind]
    else
      (if !body.name.Str? then ["Informe seu nome!"]
       else if |body.name.s| < 4 then ["Nome muito curto!"] else [])
      + (if !body.email.Str? then [NotString(body.email)]
         else if !isEmail(body.email.s) then ["E-mail inválido!"] else [])
      + (if !body.password.Str? then [NotString(body.password)]
         else if |body.password.s| < 6 then ["Senha mutio curta! Ela deve ser maior que 6 caracteres!"]
         else [])
  }

  /** An absent email or password and one of the wrong type are reported
      differently; an absent name and one of the wrong type are not. */
  lemma MissingAndWrongTypeDiffer(isEmail: string -> bool)
    ensures Issues(Fields(Str("Maria"), Missing, Str("secret")), isEmail) == ["Required"]
    ensures Issues(Fields(Str("Maria"), Other("null"), Str("secret")), isEmail) ==
              ["Expected string, received null"]
    ensures Issues(Fields(Missing, Str("m@x.io"), Str("secret")), isEmail) ==
            Issues(Fields(Other("number"), Str("m@x.io"), Str("secret")), isEmail)
  {
    assert NotString(Other("null")) == "Expected string, received null";
  }

  /** The row `prisma.user.create` writes: the hash, never the plain password;
      the default role; no reset pending. */
  function NewUser(id: Id, name: string, email: string, password: string, hash: string -> string,
                   now: int): User
  {
    User(id, name, email, Some(hash(password)), UserRole, None, None, now)
  }

  /** `POST`: validate, refuse a taken email, otherwise create the user. A
      body that is not JSON (`None`) makes `req.json()` throw outside any `try`. */
  method Post(db: Store, body: Option<RegisterBody>, isEmail: string -> bool, hash: string -> string, now: int)
    returns (outcome: Outcome)
    requires db.Valid()
    modifies db`users, db`nextUserId
    ensures db.Valid()
    ensures outcome.Uncaught? <==> body.None?
    ensures outcome.Invalid? <==> body.Some? && !Acceptable(body.value, isEmail)
    ensures outcome.Invalid? ==> outcome.issues == Issues(body.value, isEmail)
    ensures !outcome.Registered? ==> db.users == old(db.users) && db.nextUserId == old(db.nextUserId)
    ensures body.Some? && Acceptable(body.value, isEmail) ==>
              (outcome == EmailTaken <==>
                 exists id :: id in old(db.users) && old(db.users)[id].email == body.value.email.s)
    ensures outcome.Registered? ==>
              && outcome.id == old(db.nextUserId) && outcome.id !in old(db.users)
              && db.users == old(db.users)[outcome.id := NewUser(outcome.id, body.value.name.s, body.value.email.s,
                                                                 body.value.password.s, hash, now)]
              && db.nextUserId == old(db.nextUserId) + 1
  {
    if body.None? {
      return Uncaught;
    }
    if !Acceptable(body.value, isEmail) {
      return Invalid(Issues(body.value, isEmail));
    }
    var name, email, password := body.value.name.s, body.value.email.s, body.value.password.s;
    var existing := FindByEmail(db.users, email);
    if existing.Some? {
      return EmailTaken;
    }
    var id := db.nextUserId;
    db.users := db.users[id := NewUser(id, name, email, password, hash, now)];
    db.nextUserId := id + 1;
    outcome := Registered(id);
  }

  /** A freshly registered user signs in with the password given at
      registration (when bcrypt's `compare` accepts a password against its own
      hash) and with no other password `compare` rejects. */
  lemma RegisteredUserSignsIn(users: map<Id, User>, id: Id, name: string, email: string, password: string,
                              attempt: string, hash: string -> string, compare: (string, string) -> bool,
                              now: int)
    requires UniqueEmails(users)
    requires id !in users
    requires forall other :: other in users ==> users[other].email != email
    requires email != "" && attempt != ""
    requires hash(password) != ""
    ensures var after := users[id := NewUser(id, name, email, password, hash, now)];
            UniqueEmails(after) &&
            Authorize(Some(Credentials(Some(email), Some(attempt))), after, compare) ==
              if compare(attempt, hash(password)) then Success(NewUser(id, name, email, password, hash, now))
              else Failure(InvalidCredentials)
  {
    var after := users[id := NewUser(id, name, email, password, hash, now)];
    var user := NewUser(id, name, email, password, hash, now);
    assert forall other :: other in after && after[other].email == email ==> other == id;
    assert UniqueEmails(after);
    var found := FindByEmail(after, email);
    assert found == Some(user) by {
      assert after[id].email == email;
      var k :| k in after && after[k] == found.value;
      assert k == id;
    }
  }
}

=== FILE: sorting.dfy ===
/** Sorting by a key under an abstract total preorder.

    The pages sort with `localeCompare`, a locale collation; it is modelled by
    an arbitrary total preorder `le` on keys (`le(x, y)` standing for
    `x.localeCompare(y) <= 0`). The database sorts timestamps. */
module Sorting {

  /** `le` is total and transitive (hence reflexive). */
  ghost predicate TotalPreorder<K(!new)>(le: (K, K) -> bool) {
    && (forall x, y :: le(x, y) || le(y, x))
    && (forall x, y, z :: le(x, y) && le(y, z) ==> le(x, z))
  }

  /** Each element's key is `le`-below the key of every later element. */
  ghost predicate SortedBy<T, K>(s: seq<T>, key: T -> K, le: (K, K) -> bool) {
    forall i, j :: 0 <= i < j < |s| ==> le(key(s[i]), key(s[j]))
  }

  datatype Direction = Asc | Desc

  /** The comparator `(a, b) => cmp(a, b)` for ascending order and
      `(a, b) => cmp(b, a)` for descending order. */
  function Directed<K>(le: (K, K) -> bool, dir: Direction): (K, K) -> bool {
    if dir == Asc then le else (x: K, y: K) => le(y, x)
  }

  /** Swapping the comparator's arguments keeps a total preorder. */
  lemma DirectedTotalPreorder<K(!new)>(le: (K, K) -> bool, dir: Direction)
    requires TotalPreorder(le)
    ensures TotalPreorder(Directed(le, dir))
  {
  }

  /** Sorted under the swapped comparator means sorted in reverse key order. */
  lemma DescendingMeansReversed<T, K>(s: seq<T>, key: T -> K, le: (K, K) -> bool)
    ensures SortedBy(s, key, Directed(le, Desc)) <==>
            forall i, j :: 0 <= i < j < |s| ==> le(key(s[j]), key(s[i]))
  {
  }

  /** Inserts `x` into the sorted `s` before the first element it is `le`-below. */
  function Insert<T, K(!new)>(x: T, s: seq<T>, key: T -> K, le: (K, K) -> bool): (r: seq<T>)
    requires TotalPreorder(le) && SortedBy(s, key, le)
    ensures multiset(r) == multiset(s) + multiset{x}
    ensures SortedBy(r, key, le)
  {
    if s == [] then [x]
    else if le(key(x), key(s[0])) then [x] + s
    else
      var tail := Insert(x, s[1..], key, le);
      assert s == [s[0]] + s[1..];
      HeadBelowInserted(x, s, tail, key, le);
      [s[0]] + tail
  }

  /** The head of a sorted list that `x` goes after is below everything the
      insertion into its tail produces. */
  lemma HeadBelowInserted<T, K(!new)>(x: T, s: seq<T>, tail: seq<T>, key: T -> K, le: (K, K) -> bool)
    requires TotalPreorder(le) && SortedBy(s, key, le)
    requires s != [] && !le(key(x), key(s[0]))
    requires multiset(tail) == multiset(s[1..]) + multiset{x}
    ensures forall k :: 0 <= k < |tail| ==> le(key(s[0]), key(tail[k]))
  {
    forall k | 0 <= k < |tail| ensures le(key(s[0]), key(tail[k])) {
      assert tail[k] in multiset(tail);
      if tail[k] != x {
        assert tail[k] in multiset(s[1..]);
        var m :| 0 <= m < |s[1..]| && s[1..][m] == tail[k];
        assert s[m + 1] == tail[k];
      }
    }
  }

  /** A sorted permutation of `s`: the reference result of any sort by `key`. */
  function Sort<T, K(!new)>(s: seq<T>, key: T -> K, le: (K, K) -> bool): (r: seq<T>)
    requires TotalPreorder(le)
    ensures multiset(r) == multiset(s)
    ensures SortedBy(r, key, le)
  {
    if s == [] then []
    else
      assert s == [s[0]] + s[1..];
      Insert(s[0], Sort(s[1..], key, le), key, le)
  }

  /** `a.sort(comparator)` in place, as the pages' effects do it; insertion sort
      by adjacent swaps. */
  method SortInPlace<T, K(!new)>(a: array<T>, key: T -> K, le: (K, K) -> bool)
    requires TotalPreorder(le)
    modifies a
    ensures SortedBy(a[..], key, le)
    ensures multiset(a[..]) == multiset(old(a[..]))
  {
    var i := 0;
    while i < a.Length
      invariant 0 <= i <= a.Length
      invariant SortedBy(a[..i], key, le)
      invariant multiset(a[..]) == multiset(old(a[..]))
    {
      var j := i;
      while j > 0 && !le(key(a[j - 1]), key(a[j]))
        invariant 0 <= j <= i
        invariant forall p, q :: 0 <= p < q <= i && p != j && q != j ==> le(key(a[p]), key(a[q]))
        invariant forall q :: j < q <= i ==> le(key(a[j]), key(a[q]))
        invariant multiset(a[..]) == multiset(old(a[..]))
      {
        a[j - 1], a[j] := a[j], a[j - 1];
        j := j - 1;
      }
      i := i + 1;
    }
    assert a[..a.Length] == a[..];
  }
}

=== FILE: strings.dfy ===
/** The JavaScript string primitives the core relies on: `startsWith`, `includes`,
    `toLowerCase`, `trim`, `join` and `split` on a single character. */
module Strings {

  predicate StartsWith(s: string, prefix: string) {
    |prefix| <= |s| && s[..|prefix|] == prefix
  }

  /** `s.includes(sub)`: `sub` occurs at some position of `s`. */
  predicate Contains(s: string, sub: string) {
    exists i :: 0 <= i <= |s| - |sub| && OccursAt(s, sub, i)
  }

  /** `sub` occurs in `s` starting at index `i`. */
  predicate OccursAt(s: string, sub: string, i: int) {
    0 <= i && i + |sub| <= |s| && s[i..i + |sub|] == sub
  }

  /** Lower-casing of one character; only the ASCII letters are mapped. */
  function LowerChar(c: char): (d: char)
    ensures 'A' <= c <= 'Z' ==> 'a' <= d <= 'z' && d as int == c as int + 32
    ensures !('A' <= c <= 'Z') ==> d == c
  {
    if 'A' <= c <= 'Z' then (c as int + 32) as char else c
  }

  function Lower(s: string): (r: string)
    ensures |r| == |s|
    ensures forall i :: 0 <= i < |r| ==> !('A' <= r[i] <= 'Z')
  {
    seq(|s|, i requires 0 <= i < |s| => LowerChar(s[i]))
  }

  /** `toLowerCase` is idempotent. */
  lemma LowerIdempotent(s: string)
    ensures Lower(Lower(s)) == Lower(s)
  {
  }

  /** The characters `String.prototype.trim` removes: ECMAScript WhiteSpace
      (tab, vertical tab, form feed, space, no-break space, byte order mark and
      the Unicode space separators) and LineTerminator. */
  predicate IsWhitespace(c: char) {
    c == '\t' || c == '\n' || c == '\U{B}' || c == '\U{C}' || c == '\r' || c == ' '
    || c == '\U{A0}' || c == '\U{1680}' || ('\U{2000}' <= c <= '\U{200A}')
    || c == '\U{2028}' || c == '\U{2029}' || c == '\U{202F}' || c == '\U{205F}'
    || c == '\U{3000}' || c == '\U{FEFF}'
  }

  function TrimStart(s: string): (r: string)
    ensures |r| <= |s| && r == s[|s| - |r|..]
    ensures r == [] || !IsWhitespace(r[0])
  {
    if |s| > 0 && IsWhitespace(s[0]) then TrimStart(s[1..]) else s
  }

  function TrimEnd(s: string): (r: string)
    ensures |r| <= |s| && r == s[..|r|]
    ensures r == [] || !IsWhitespace(r[|r| - 1])
  {
    if |s| > 0 && IsWhitespace(s[|s| - 1]) then TrimEnd(s[..|s| - 1]) else s
  }

  /** `s.trim()`. */
  function Trim(s: string): string {
    TrimEnd(TrimStart(s))
  }

  /** Every character of `s` is white space. */
  predicate IsBlank(s: string) {
    forall i :: 0 <= i < |s| ==> IsWhitespace(s[i])
  }

  /** Lower-casing neither adds nor removes white space. */
  lemma LowerKeepsBlank(s: string)
    ensures IsBlank(Lower(s)) <==> IsBlank(s)
  {
    forall i | 0 <= i < |s| ensures IsWhitespace(Lower(s)[i]) == IsWhitespace(s[i]) {
      assert Lower(s)[i] == LowerChar(s[i]);
    }
  }

  /** `s.trim()` is falsy exactly when `s` is empty or made of white space only. */
  lemma {:induction false} TrimEmptyIffBlank(s: string)
    ensures Trim(s) == "" <==> IsBlank(s)
  {
    TrimStartEmptyIffBlank(s);
    var t := TrimStart(s);
    if t != [] {
      assert !IsWhitespace(t[0]);
      assert TrimEnd(t) != [] by {
        if TrimEnd(t) == [] {
          TrimEndEmptyOnlyIfBlank(t);
        }
      }
    }
  }

  lemma {:induction false} TrimStartEmptyIffBlank(s: string)
    ensures TrimStart(s) == "" <==> IsBlank(s)
  {
    if |s| > 0 && IsWhitespace(s[0]) {
      TrimStartEmptyIffBlank(s[1..]);
      assert IsBlank(s) <==> IsBlank(s[1..]) by {
        if IsBlank(s[1..]) {
          forall i | 0 <= i < |s| ensures IsWhitespace(s[i]) {
            if i > 0 { assert s[i] == s[1..][i - 1]; }
          }
        }
      }
    }
  }

  lemma {:induction false} TrimEndEmptyOnlyIfBlank(s: string)
    requires TrimEnd(s) == []
    ensures IsBlank(s)
  {
    if |s| > 0 {
      assert IsWhitespace(s[|s| - 1]);
      TrimEndEmptyOnlyIfBlank(s[..|s| - 1]);
      forall i | 0 <= i < |s| ensures IsWhitespace(s[i]) {
        if i < |s| - 1 { assert s[i] == s[..|s| - 1][i]; }
      }
    }
  }

  /** `parts.join(sep)`. */
  function Join(sep: string, parts: seq<string>): string {
    if |parts| == 0 then ""
    else if |parts| == 1 then parts[0]
    else parts[0] + sep + Join(sep, parts[1..])
  }

  /** `s.split(c)` for a one-character separator; like JavaScript, the empty string splits into `[""]`. */
  function Split(s: string, c: char): (r: seq<string>)
    ensures |r| >= 1
  {
    if |s| == 0 then [""]
    else if s[0] == c then [""] + Split(s[1..], c)
    else
      var rest := Split(s[1..], c);
      [[s[0]] + rest[0]] + rest[1..]
  }

  /** Splitting a piece free of the separator, followed by more text, yields that piece first. */
  lemma {:induction false} SplitPiece(p: string, c: char, rest: string)
    requires c !in p
    ensures Split(p + [c] + rest, c) == [p] + Split(rest, c)
    ensures Split(p, c) == [p]
  {
    if |p| > 0 {
      SplitPiece(p[1..], c, rest);
      assert (p + [c] + rest)[1..] == p[1..] + [c] + rest;
      assert [p[0]] + p[1..] == p;
    } else {
      assert p + [c] + rest == [c] + rest;
    }
  }

  /** `join` and `split` are inverse when no part contains the separator:
      the text has exactly one line per part. */
  lemma {:induction false} SplitJoin(parts: seq<string>, c: char)
    requires |parts| >= 1
    requires forall i :: 0 <= i < |parts| ==> c !in parts[i]
    ensures Split(Join([c], parts), c) == parts
  {
    if |parts| == 1 {
      SplitPiece(parts[0], c, "");
    } else {
      var tail := parts[1..];
      assert forall i :: 0 <= i < |tail| ==> c !in tail[i] by {
        forall i | 0 <= i < |tail| ensures c !in tail[i] { assert tail[i] == parts[i + 1]; }
      }
      SplitJoin(tail, c);
      assert Join([c], parts) == parts[0] + [c] + Join([c], tail);
      SplitPiece(parts[0], c, Join([c], tail));
      assert [parts[0]] + tail == parts;
    }
  }
}

=== FILE: testimonial_form.dfy ===
/** The `validation` schema of the testimonial form, identical on the admin
    page and on the user's page: content between 10 and 150 characters. */
module TestimonialForm {
  import opened Wrappers

  const MinLength := 10
  const MaxLength := 150

  /** The schema's verdict on the `content` field: the content itself, or the
      message shown under the field. */
  function Validate(content: Option<string>): (r: Result<string, string>)
    ensures r.Success? <==> content.Some? && MinLength <= |content.value| <= MaxLength
    ensures r.Success? ==> r.value == content.value
    ensures content.None? ==> r == Failure("Informe seu depoimento")
    ensures content.Some? && |content.value| < MinLength ==> r == Failure("Depoimento muito curto!")
    ensures content.Some? && |content.value| > MaxLength ==> r == Failure("Depoimento muito longo!")
  {
    match content
    case None => Failure("Informe seu depoimento")
    case Some(c) =>
      if |c| < MinLength then Failure("Depoimento muito curto!")
      else if |c| > MaxLength then Failure("Depoimento muito longo!")
      else Success(c)
  }
}

=== FILE: testimonials_api.dfy ===
/** The testimonial collection endpoint (src/app/api/testimonials/route.ts). */
module TestimonialsApi {
  import opened Wrappers
  import opened Db
  import opened AuthOptions
  import opened Sorting

  /** `sort === "asc"` after defaulting a missing or empty parameter to `"desc"`. */
  predicate Ascending(sort: Option<string>) {
    (if Truthy(sort) then sort.value else "desc") == "asc"
  }

  /** Only the exact value `"asc"` gives ascending order. */
  lemma AscendingOnlyForAsc(sort: Option<string>)
    ensures Ascending(sort) <==> sort == Some("asc")
  {
  }

  datatype ListResponse = Listed(items: seq<Testimonial>) | Failed {
    function Status(): int {
      if Listed? then 200 else 500
    }
  }

  /** `GET`: every testimonial ordered by creation time, ascending only for
      `sort=asc`. A failing query (`queryFails`) is answered with 500. */
  function Get(db: Store, sort: Option<string>, queryFails: bool): (r: ListResponse)
    reads db
    ensures r.Failed? <==> queryFails
    ensures r.Listed? ==> multiset(r.items) == multiset(db.testimonials)
    ensures r.Listed? && sort == Some("asc") ==>
              forall i, j :: 0 <= i < j < |r.items| ==> r.items[i].createdAt <= r.items[j].createdAt
    ensures r.Listed? && sort != Some("asc") ==>
              forall i, j :: 0 <= i < j < |r.items| ==> r.items[j].createdAt <= r.items[i].createdAt
  {
    if queryFails then Failed
    else
      var dir := if Ascending(sort) then Asc else Desc;
      Listed(Sort(db.testimonials, (t: Testimonial) => t.createdAt, Directed((x: int, y: int) => x <= y, dir)))
  }

  datatype CreateResponse = Unauthorized | Created(testimonial: Testimonial) | Rejected {
    function Status(): int {
      if Unauthorized? then 401 else if Created? then 200 else 500
    }
  }

  /** The decoded JSON body of a `POST`. The route spreads the whole body into
      the new row, so besides the text columns in `fields` the body may carry
      the row's `id` and `createdAt`, which then take the place of the
      database's defaults. */
  datatype CreateBody = CreateBody(fields: map<string, string>, id: Option<Id>, createdAt: Option<int>)

  /** The session's email when the session, its user and the email are all present. */
  function SessionEmail(session: Option<SessionData>): Option<string>
  {
    if session.Some? && session.value.user.Some? && Truthy(session.value.user.value.email)
    then session.value.user.value.email
    else None
  }

  /** `{ ...data, userId: user.id }`: the body's columns, with the owner written
      after them so that it wins. An `id` or `createdAt` in the body is kept;
      without one the database supplies the next identifier (`next`) or the
      current time (`now`). */
  function NewTestimonial(next: Id, owner: Id, body: CreateBody, now: int): (t: Testimonial)
    ensures t.userId == owner
    ensures body.id.Some? ==> t.id == body.id.value
    ensures body.id.None? ==> t.id == next
    ensures body.createdAt.Some? ==> t.createdAt == body.createdAt.value
    ensures body.createdAt.None? ==> t.createdAt == now
    ensures t.fields.Keys == body.fields.Keys - {"userId"}
    ensures forall k :: k in t.fields ==> t.fields[k] == body.fields[k]
  {
    Testimonial(ChosenId(next, body), owner, body.fields - {"userId"},
                if body.createdAt.Some? then body.createdAt.value else now)
  }

  /** A `userId` in the body never decides the owner. */
  lemma BodyUserIdIgnored(next: Id, owner: Id, body: CreateBody, forged: string, now: int)
    ensures NewTestimonial(next, owner, body.(fields := body.fields["userId" := forged]), now)
            == NewTestimonial(next, owner, body, now)
  {
    assert body.fields["userId" := forged] - {"userId"} == body.fields - {"userId"};
  }

  /** A `createdAt` in the body overrides the clock: the stored creation time
      is whatever the client sent, whenever the request arrives. */
  lemma BodyCreatedAtWins(next: Id, owner: Id, body: CreateBody, sent: int, now: int, later: int)
    ensures NewTestimonial(next, owner, body.(createdAt := Some(sent)), now).createdAt == sent
    ensures NewTestimonial(next, owner, body.(createdAt := Some(sent)), now)
            == NewTestimonial(next, owner, body.(createdAt := Some(sent)), later)
  {
  }

  /** The identifier the insert would use: the body's own, or the next one. */
  function ChosenId(next: Id, body: CreateBody): Id {
    if body.id.Some? then body.id.value else next
  }

  /** `POST`: find the signed-in user by the session's email and store the
      body under that user; nothing checks the content's length. A body that
      is not JSON (`None`) makes `request.json()` throw, and an identifier
      already in use makes the insert throw; the route's `catch` answers
      either with 500, storing nothing. */
  method Post(db: Store, session: Option<SessionData>, body: Option<CreateBody>, now: int)
    returns (r: CreateResponse)
    requires db.Valid()
    modifies db`testimonials, db`nextTestimonialId
    ensures db.Valid()
    ensures r.Unauthorized? <==>
              SessionEmail(session).None? || FindByEmail(db.users, SessionEmail(session).value).None?
    ensures r.Rejected? <==>
              && !r.Unauthorized?
              && (body.None? || IdTaken(old(db.testimonials), ChosenId(old(db.nextTestimonialId), body.value)))
    ensures !r.Created? ==>
              db.testimonials == old(db.testimonials) && db.nextTestimonialId == old(db.nextTestimonialId)
    ensures r.Created? ==>
              && r.testimonial == NewTestimonial(old(db.nextTestimonialId),
                                                 FindByEmail(db.users, SessionEmail(session).value).value.id,
                                                 body.value, now)
              && db.testimonials == old(db.testimonials) + [r.testimonial]
              && db.nextTestimonialId == old(db.nextTestimonialId) + (if body.value.id.None? then 1 else 0)
  {
    var email := SessionEmail(session);
    if email.None? {
      return Unauthorized;
    }
    var user := FindByEmail(db.users, email.value);
    if user.None? {
      return Unauthorized;
    }
    if body.None? {
      return Rejected;
    }
    var t := NewTestimonial(db.nextTestimonialId, user.value.id, body.value, now);
    if exists i :: 0 <= i < |db.testimonials| && db.testimonials[i].id == t.id {
      return Rejected;
    }
    db.testimonials := db.testimonials + [t];
    if body.value.id.None? {
      db.nextTestimonialId := db.nextTestimonialId + 1;
    }
    r := Created(t);
  }

  /** The same post with a client-chosen identifier, sent twice: the second
      never stores a row, and it is refused with 500 whenever the first got
      past the session check. */
  method PostSameIdTwice(db: Store, session: Option<SessionData>, body: CreateBody, now: int)
    returns (first: CreateResponse, second: CreateResponse)
    requires db.Valid()
    requires body.id.Some?
    modifies db`testimonials, db`nextTestimonialId
    ensures !second.Created?
    ensures second.Rejected? <==> !first.Unauthorized?
  {
    first := Post(db, session, Some(body), now);
    if first.Created? {
      assert db.testimonials[|db.testimonials| - 1].id == body.id.value;
    }
    second := Post(db, session, Some(body), now);
  }
}

=== FILE: testimonials_page.dfy ===
/** The list logic of the user's own testimonials page
    (src/app/testimonials/page.tsx): search and sort of the loaded list and the
    local updates after a delete or an edit. */
module TestimonialsPage {
  import opened Strings
  import opened Lists
  import opened Sorting
  import opened Db

  /** A `Testimonial` row as the page holds it after JSON decoding: the form
      fields reduce to `content`, and `createdAt` is the date string. */
  datatype OwnItem = OwnItem(id: Id, content: string, userId: Id, createdAt: string)

  /** The lower-cased search text occurs in the lower-cased content; the
      author is not searched on this page. */
  predicate Matches(t: OwnItem, search: string) {
    Contains(Lower(t.content), Lower(search))
  }

  /** The filter step: a blank search keeps every item; otherwise the items
      whose content the (untrimmed) search text matches. */
  function Search(items: seq<OwnItem>, search: string): (r: seq<OwnItem>)
    ensures forall t :: t in r <==> t in items && (IsBlank(search) || Matches(t, search))
    ensures multiset(r) <= multiset(items)
    ensures IsBlank(search) ==> r == items
  {
    TrimEmptyIffBlank(search);
    if Trim(search) != "" then Filter(items, (t: OwnItem) => Matches(t, search)) else items
  }

  /** The search ignores letter case: lower-casing the search text first
      finds the same items in the same order. */
  lemma SearchIgnoresCase(items: seq<OwnItem>, search: string)
    ensures Search(items, Lower(search)) == Search(items, search)
  {
    LowerIdempotent(search);
    LowerKeepsBlank(search);
    TrimEmptyIffBlank(search);
    TrimEmptyIffBlank(Lower(search));
    if !IsBlank(search) {
      FilterSame(items, (t: OwnItem) => Matches(t, Lower(search)), (t: OwnItem) => Matches(t, search));
    }
  }

  /** The value compared for `sortBy`: the creation date, or for any other
      value the content. */
  function SortKey(sortBy: string, t: OwnItem): string
  {
    if sortBy == "createdAt" then t.createdAt else t.content
  }

  /** The effect that recomputes `filtered`: copy, filter, sort in place with
      `localeCompare` (the total preorder `le`), arguments swapped for `"desc"`. */
  method Refresh(testimonials: seq<OwnItem>, search: string, sortBy: string, order: Direction,
                 le: (string, string) -> bool) returns (filtered: seq<OwnItem>)
    requires TotalPreorder(le)
    ensures multiset(filtered) == multiset(Search(testimonials, search))
    ensures forall t :: t in filtered <==> t in testimonials && (IsBlank(search) || Matches(t, search))
    ensures order == Asc ==> forall i, j :: 0 <= i < j < |filtered| ==>
              le(SortKey(sortBy, filtered[i]), SortKey(sortBy, filtered[j]))
    ensures order == Desc ==> forall i, j :: 0 <= i < j < |filtered| ==>
              le(SortKey(sortBy, filtered[j]), SortKey(sortBy, filtered[i]))
  {
    var result := testimonials;
    TrimEmptyIffBlank(search);
    if Trim(search) != "" {
      result := Filter(result, (t: OwnItem) => Matches(t, search));
    }
    assert result == Search(testimonials, search);
    var a := new OwnItem[|result|](i requires 0 <= i < |result| => result[i]);
    assert a[..] == result;
    DirectedTotalPreorder(le, order);
    SortInPlace(a, (t: OwnItem) => SortKey(sortBy, t), Directed(le, order));
    filtered := a[..];
    forall t ensures t in filtered <==> t in result {
      assert t in filtered <==> t in multiset(filtered);
      assert t in result <==> t in multiset(result);
    }
  }

  /** The update after a delete: every entry but the deleted one, in order. */
  function Delete(items: seq<OwnItem>, id: Id): (r: seq<OwnItem>)
    ensures forall t :: t in r <==> t in items && t.id != id
    ensures multiset(r) <= multiset(items)
  {
    Filter(items, (t: OwnItem) => t.id != id)
  }

  /** Deleting keeps the survivors' relative order: it distributes over concatenation. */
  lemma DeleteKeepsOrder(front: seq<OwnItem>, back: seq<OwnItem>, id: Id)
    ensures Delete(front + back, id) == Delete(front, id) + Delete(back, id)
  {
    FilterAppend(front, back, (t: OwnItem) => t.id != id);
  }

  /** The list shown after a delete is the list shown before it, less the
      deleted entry: searching and deleting commute. */
  lemma DeleteThenSearch(items: seq<OwnItem>, id: Id, search: string)
    ensures Search(Delete(items, id), search) == Delete(Search(items, search), id)
  {
    TrimEmptyIffBlank(search);
    if Trim(search) != "" {
      FilterCommute(items, (t: OwnItem) => t.id != id, (t: OwnItem) => Matches(t, search));
    }
  }

  /** The update after an edit: the entry with the edited id gets the new
      content; positions, identifiers, owners and dates do not change. */
  function Edit(items: seq<OwnItem>, id: Id, content: string): (r: seq<OwnItem>)
    ensures |r| == |items|
    ensures forall i :: 0 <= i < |r| ==>
              r[i].id == items[i].id && r[i].userId == items[i].userId && r[i].createdAt == items[i].createdAt
    ensures forall i :: 0 <= i < |r| ==> r[i].content == if items[i].id == id then content else items[i].content
  {
    seq(|items|, i requires 0 <= i < |items| => if items[i].id == id then items[i].(content := content) else items[i])
  }

  /** An edit of an identifier nobody has leaves the list as it is. */
  lemma EditAbsent(items: seq<OwnItem>, id: Id, content: string)
    requires forall i :: 0 <= i < |items| ==> items[i].id != id
    ensures Edit(items, id, content) == items
  {
  }

  /** An edit never changes what a delete of the same identifier leaves. */
  lemma {:induction false} EditThenDelete(items: seq<OwnItem>, id: Id, content: string)
    ensures Delete(Edit(items, id, content), id) == Delete(items, id)
  {
    if items != [] {
      var edited := Edit(items, id, content);
      assert edited[1..] == Edit(items[1..], id, content);
      EditThenDelete(items[1..], id, content);
    }
  }
}

=== FILE: users_api.dfy ===
/** The user listing endpoint (src/app/api/users/route.ts). */
module UsersApi {
  import opened Wrappers
  import opened Db
  import opened AuthOptions
  import opened AdminGate
  import opened Sorting

  datatype Response = Unauthorized | Listed(users: seq<User>) {
    function Status(): int {
      if Unauthorized? then 401 else 200
    }
  }

  /** `GET`: refuse anyone but an administrator before touching the store;
      otherwise every user, newest first (`orderBy: { createdAt: "desc" }`). */
  function Get(session: Option<SessionData>, db: Store): (r: Response)
    requires db.Valid()
    reads db
    ensures r.Unauthorized? <==> IsAdmin(session).None?
    ensures r.Listed? ==> multiset(r.users) == multiset(db.UserRows())
    ensures r.Listed? ==> forall u :: u in r.users <==> u in db.users.Values
    ensures r.Listed? ==> forall i, j :: 0 <= i < j < |r.users| ==> r.users[j].createdAt <= r.users[i].createdAt
  {
    if IsAdmin(session).None? then Unauthorized
    else
      var rows := db.UserRows();
      var newestFirst := Sort(rows, (u: User) => u.createdAt, Directed((x: int, y: int) => x <= y, Desc));
      assert forall u :: u in newestFirst <==> u in rows by {
        forall u ensures u in newestFirst <==> u in rows {
          assert u in newestFirst <==> u in multiset(newestFirst);
          assert u in rows <==> u in multiset(rows);
        }
      }
      Listed(newestFirst)
  }
}

=== FILE: wrappers.dfy ===
/** Option and Result, the failure-carrying values used by every handler model. */
module Wrappers {

  datatype Option<+T> = None | Some(value: T)

  datatype Result<+R, +E> = Success(value: R) | Failure(error: E)

  /** JavaScript truthiness of an optional string: absent (`undefined`/`null`) and `""` are falsy. */
  predicate Truthy(s: Option<string>) {
    s.Some? && s.value != ""
  }
}
